=== FILE: README.md ===
# generateAction, modelled in Dafny

`generateAction` turns one edit of a form into the single action descriptor
`{type, payload}` that the store applies. It takes five inputs:

- a slash-delimited id, such as `posts/0/comment/0/text`, or two ids for a swap;
- an update type: create, update, delete, swap, connect or disconnect;
- an optional new value;
- an optional relation descriptor;
- the root value of the form.

Its only source in this model is its test suite,
`test/action/generateAction.test.js`. The function itself
(`src/action/generateAction`) is not part of this model. The model is
therefore a specification of what the suite pins down:

- **Documents** (`documents.dfy`): the JSON-like value as a datatype `Doc`,
  with the persistent-collection operations the suite builds its expected
  values with: `getIn`, `setIn`, `updateIn(…, push)` and
  `updateIn(…, delete(i))` (`GetIn`, `SetIn`, `AppendAt`, `DeleteAt`).
  The library has no swap. The exchange of two list elements, `SwapAt`, is
  the model's own operation. The suite writes the swapped lists out
  literally, and `ActionExamples.UsersSwapped` and
  `ActionExamples.PhonesSwapped` show `SwapAt` yields exactly those lists.
- **Paths** (`paths.dfy`): splitting an id at `/` and joining a sub-path
  back together. It also reads a token as a list index the way a persistent
  list reads a string key: only the canonical decimal spelling (`"0"`,
  `"12"`, not `"01"`) selects an element.
- **Resolution** (`Actions.Resolve`): the first token names a root field.
  - If that field is a list, the second token picks the owning record, and
    its id is the record's `id` field (`'id1'` for `posts/0`).
  - If the field is a map, the map is the owning record and its id is `""`.
  - An id of one token must name a root list: the collection itself, which
    has no owner, and whose id is `undefined`.
  - The tokens left over form the sub-path inside the owner.
- **Selection** (`Actions.Select`): the decision table from update type,
  location class and "relation present" to one of the nine action types.
  `Actions.GenerateAction` builds the payload for the chosen type.
- **Properties** (`action_properties.dfy`): one lemma per group of the suite,
  stated for every input rather than for the fixture alone. For example:
  - an update emits the owner with exactly the leaf changed;
  - writing the emitted owner back at its place equals making the change at
    the full path;
  - a swap exchanges exactly the two named elements of one list and keeps
    the rest of that list and of the document.
- **Examples** (`examples_fixture.dfy`): the suite's fixture and one lemma
  per test case, each proving the action that test expects.
  - The `…Example` lemmas take the id by its tokens.
  - The `…Tokens` lemmas show that the literal id the test passes has
    exactly those tokens.
  - `Paths.SplitInjective` shows that no other id does.

## Model

| member | source | states |
|---|---|---|
| Paths.Split | test/action/generateAction.test.js:46 | an id splits into at least one token, and no token contains `/` |
| Paths.Join | test/action/generateAction.test.js:176 | `tokens.join('/')`, the inverse of `Paths.Split`: `Paths.JoinSplit` and `Paths.SplitJoin` prove both round trips |
| Paths.JoinSplit | test/action/generateAction.test.js:46 | joining the tokens of an id with `/` gives back the id |
| Paths.SplitJoin | test/action/generateAction.test.js:176 | splitting a join of separator-free tokens gives back those tokens, so a sub-path survives being sent as a string |
| Paths.SplitInjective | test/action/generateAction.test.js:46 | two ids with the same tokens are the same id |
| Paths.JoinConcat | test/action/generateAction.test.js:176 | joining two token runs puts exactly one `/` between their joins |
| Paths.IndexToken | test/action/generateAction.test.js:58 | the decimal spelling of an index is a canonical index token, starting with `0` only for index 0 |
| Paths.DigitsValueOfIndexToken | test/action/generateAction.test.js:58 | reading back the spelling of an index gives the index |
| Paths.IndexTokenOfDigits | test/action/generateAction.test.js:46 | a canonical index token is the spelling of the number it reads as |
| Paths.ParseIndex | test/action/generateAction.test.js:46 | a persistent list read by a string key: only a canonical decimal token selects an element; `Paths.ParseIndexIff` pins it to `Paths.IndexToken` in both directions |
| Paths.ParseIndexIff | test/action/generateAction.test.js:46 | a token selects list element `n` if and only if it is the decimal spelling of `n` |
| Paths.ParseIndexInjective | test/action/generateAction.test.js:46 | two tokens that select the same element are the same token |
| Documents.GetIn | test/action/generateAction.test.js:56-58 | `getIn(path)`, undefined as soon as one step is missing; `Documents.GetInConcat` and the `Documents.SetIn` lemmas relate it to `setIn` |
| Documents.SetChild | test/action/generateAction.test.js:57-58 | after one `set`, the child reads the new value |
| Documents.ChildSetChildOther | test/action/generateAction.test.js:57-58 | one `set` leaves every other child unchanged |
| Documents.SetIn | test/action/generateAction.test.js:57-58 | after `setIn(path, v)`, `getIn(path)` reads `v` |
| Documents.GetInConcat | test/action/generateAction.test.js:56-58 | reading along `p + q` is reading `q` inside what `p` reads |
| Documents.GetSetExtend | test/action/generateAction.test.js:57-58 | after `setIn(p, v)`, reading below `p` reads inside `v` |
| Documents.SetInFrame | test/action/generateAction.test.js:57-58 | `setIn(p, v)` leaves every path that parts ways with `p` unchanged |
| Documents.SetInFrameAll | test/action/generateAction.test.js:57-58 | the frame of `setIn`, for all diverging paths at once |
| Documents.SetInSame | test/action/generateAction.test.js:57-58 | writing back what a path already holds changes nothing |
| Documents.SetInTwice | test/action/generateAction.test.js:57-58 | the second of two writes to one path wins |
| Documents.SetInConcat | test/action/generateAction.test.js:56-58 | writing at `p + q` is writing, at `p`, the owner with `q` written inside it |
| Documents.AppendAt | test/action/generateAction.test.js:128 | `updateIn(path, push(v))`: the list at `path` gains `v` at its end and nothing outside it changes |
| Documents.AppendAtConcat | test/action/generateAction.test.js:126-128 | pushing below `p` is pushing inside the owner at `p` |
| Documents.ParentDefined | test/action/generateAction.test.js:214 | a non-empty path is defined if and only if its parent holds its last token |
| Documents.DeleteAt | test/action/generateAction.test.js:214 | `updateIn(list, delete(i))`: the list loses element `i`; earlier elements stay put and later ones move down by one; a map loses the key; nothing outside the container changes |
| Documents.DeleteAtConcat | test/action/generateAction.test.js:212-214 | deleting below `p` is deleting inside the owner at `p` |
| Documents.SwapAt | test/action/generateAction.test.js:298-302 | elements `i` and `j` trade places, every other element stays, the list keeps its length and multiset, nothing outside it changes |
| Documents.SwapAtReads | test/action/generateAction.test.js:298-302 | after a swap, each of the two element paths reads what the other read before |
| Documents.SwapAtInvolutive | test/action/generateAction.test.js:298-302 | swapping the same two elements twice restores the document |
| Documents.SwapAtConcat | test/action/generateAction.test.js:296-302 | swapping below `p` is swapping inside the owner at `p` |
| Actions.Resolve | test/action/generateAction.test.js:52-57 | an id resolves if and only if it is a single token naming a root list, or it has more tokens and its first names a root map, or its first two reach a list element. A bare collection id reads a list. Its tokens are the owner path followed by the sub-path, the owner path reads the owning record, and a root map's sub-path is never empty |
| Actions.IdField | test/action/generateAction.test.js:52-56 | `record.get('id')`: the owning element's `id` field, `undefined` when it has none |
| Actions.Select | test/action/generateAction.test.js:43-385 | the decision table: only a create without a relation acts on a bare collection (CREATE_ARRAY); DELETE_ARRAY exactly for a delete without a relation of a root list element, NOOP exactly for a swap of one; each relation type exactly for its update type with a relation below a record; UPDATE_ARRAY only for a root list's element, UPDATE_OBJECT only below a root map, and conversely an update, a create without a relation, and a delete or swap nested below a record do select the owner's record update; connect and disconnect need a relation |
| Actions.Valid | test/action/generateAction.test.js:43-385 | the requests the suite gives an action: the id resolves, the table has an entry, the update has its value, an update or relation names an existing field, a create a list, a delete an existing list element or map field, and a swap two root elements or two elements of one list |
| Actions.Location.Place | test/action/generateAction.test.js:43-385 | the location class the table is indexed by: a bare root list, a root list's element itself, a place below one, or a place below a root map |
| Actions.Location.OwnerId | test/action/generateAction.test.js:56 | the owning id in a payload: the element's `id` field below a root list (`'id1'` here, `'id2'` at line 212), `""` below a root map (line 76), `undefined` for a bare collection (line 102) |
| Actions.WellShaped | test/action/generateAction.test.js:43-385 | the payload shape each type calls for: `{key, id, value}` for UPDATE_ARRAY, UPDATE_OBJECT and CREATE_ARRAY (lines 53-59, 99-108), `{key, id}` only for DELETE_ARRAY (lines 192-198), `{key, id, path, value}` for the four relation types (lines 171-181, 348-358), `{}` for NOOP (lines 276-279) |
| Actions.Swappable | test/action/generateAction.test.js:267-334 | the id pairs a swap is defined for: two elements of root lists (the NOOP case, lists not compared), or two existing elements of one list below the same owning record |
| Actions.SiblingIndices | test/action/generateAction.test.js:282-306 | two swappable ids below one owner name two in-range elements of one list |
| Actions.SwapAction | test/action/generateAction.test.js:267-334 | the swap action's type is the table's entry for the first id's location, its payload has the shape the type calls for, and it carries that location's key and owner id |
| Actions.SingleAction | test/action/generateAction.test.js:44-263 | a single-id action's type is the table's entry, its payload has the shape the type calls for, and it carries the location's key and owner id |
| Actions.GenerateAction | test/action/generateAction.test.js:43-385 | for every request with a defined action: the type is `Select`'s entry for the resolved location and relation flag; the payload has the fields that type calls for; key and id are the located owner's |
| ActionProperties.ResolveListOwner | test/action/generateAction.test.js:52-56 | an id whose first token names a root list resolves to the element its second token indexes, the rest being the sub-path |
| ActionProperties.ResolveMapOwner | test/action/generateAction.test.js:72-76 | an id whose first token names a root map resolves to that map, the rest being the sub-path |
| ActionProperties.SiblingTokens | test/action/generateAction.test.js:284-286 | an element id below an owner is the owner path, the list path and the element's index token |
| ActionProperties.OwnerReachesFullPath | test/action/generateAction.test.js:56-58 | the owner path reads the owning record, and the full id reads what the sub-path reads inside it |
| ActionProperties.MissingTargetInvalid | test/action/generateAction.test.js:44-62 | an id that reads nothing has no action for an update, connect, disconnect or any relation request |
| ActionProperties.UpdateValid | test/action/generateAction.test.js:44-82 | an update with a value at any existing field below a record has an action |
| ActionProperties.CreateValid | test/action/generateAction.test.js:112-155 | a create without a relation at any list below a record has an action |
| ActionProperties.DeleteNestedValid | test/action/generateAction.test.js:201-237 | a delete without a relation of any existing field nested below a record has an action |
| ActionProperties.UpdateSetsLeaf | test/action/generateAction.test.js:44-82 | update: UPDATE_ARRAY with the element's id for a list owner, UPDATE_OBJECT with `""` for a map owner; the key is the first token; the owner has the new value at the sub-path and is unchanged elsewhere; writing it back equals `setIn` at the full id |
| ActionProperties.CreateAtCollection | test/action/generateAction.test.js:86-110 | create at a bare root collection: CREATE_ARRAY, key the id, no id, the value verbatim |
| ActionProperties.CreateAppends | test/action/generateAction.test.js:112-155 | create below an owner without relation: the owner comes back with the value pushed on the end of the list at the sub-path and is unchanged elsewhere; writing it back equals pushing at the full id |
| ActionProperties.RelationPayload | test/action/generateAction.test.js:157-385 | create or delete with a relation, connect and disconnect: the id names an existing field below the owner; CREATE_AND_CONNECT, DISCONNECT_AND_DELETE, CONNECT or DISCONNECT with key, owner id, the raw value and the sub-path as a string; the sub-path string splits back into the sub-path, and the owner path and that string make up the id again |
| ActionProperties.DeleteRootItem | test/action/generateAction.test.js:186-199 | delete of a root list element: DELETE_ARRAY with only the key and that element's id |
| ActionProperties.DeleteNested | test/action/generateAction.test.js:201-237 | delete below an owner: the owner comes back with exactly the named element gone, the rest in order, under the owner's id; writing it back equals deleting at the full id |
| ActionProperties.SwapRootItems | test/action/generateAction.test.js:267-280 | swapping two root list elements is NOOP with an empty payload |
| ActionProperties.SwapSiblings | test/action/generateAction.test.js:282-334 | swapping two elements of one list below an owner: the owner's action type, key and id; with the owner written back, the document is `SwapAt` of the shared list: the two elements are exchanged, every other element and the length are kept, each id reads what the other read before, and everything outside that list is unchanged |
| ActionExamples.PostsTokens | test/action/generateAction.test.js:88 | the id `posts` is the single token `posts` |
| ActionExamples.CommentTextTokens | test/action/generateAction.test.js:46 | `posts/0/comment/0/text` has the tokens `posts`, `0`, `comment`, `0`, `text` |
| ActionExamples.PhoneTypeTokens | test/action/generateAction.test.js:66 | `user/info/phone/0/type` has the tokens `user`, `info`, `phone`, `0`, `type` |
| ActionExamples.PostUsersTokens | test/action/generateAction.test.js:114 | `posts/0/users` has the tokens `posts`, `0`, `users` |
| ActionExamples.PhoneTokens | test/action/generateAction.test.js:136 | `user/info/phone` has the tokens `user`, `info`, `phone` |
| ActionExamples.FirstPostTokens | test/action/generateAction.test.js:188 | `posts/0` has the tokens `posts`, `0` |
| ActionExamples.SecondPostTokens | test/action/generateAction.test.js:271 | `posts/1` has the tokens `posts`, `1` |
| ActionExamples.SecondPostFirstUserTokens | test/action/generateAction.test.js:203 | `posts/1/users/0` has the tokens `posts`, `1`, `users`, `0` |
| ActionExamples.SecondPostSecondUserTokens | test/action/generateAction.test.js:286 | `posts/1/users/1` has the tokens `posts`, `1`, `users`, `1` |
| ActionExamples.FirstPhoneTokens | test/action/generateAction.test.js:311 | `user/info/phone/0` has the tokens `user`, `info`, `phone`, `0` |
| ActionExamples.SecondPhoneTokens | test/action/generateAction.test.js:222 | `user/info/phone/1` has the tokens `user`, `info`, `phone`, `1` |
| ActionExamples.ResolvesFirstPost | test/action/generateAction.test.js:17-28 | an id starting `posts/0` resolves to the first post of the fixture |
| ActionExamples.ResolvesSecondPost | test/action/generateAction.test.js:29-40 | an id starting `posts/1` resolves to the second post of the fixture |
| ActionExamples.ResolvesUser | test/action/generateAction.test.js:5-16 | an id starting `user/` resolves to the fixture's root object `user` |
| ActionExamples.FirstPostId | test/action/generateAction.test.js:19 | the first post's id is `'id1'` |
| ActionExamples.SecondPostId | test/action/generateAction.test.js:30 | the second post's id is `'id2'` |
| ActionExamples.CommentTextDefined | test/action/generateAction.test.js:21-22 | the first post's first comment has the text `'xxx'` |
| ActionExamples.PhoneTypeDefined | test/action/generateAction.test.js:13 | the user's first phone has the type `'H'` |
| ActionExamples.FirstUserDeleted | test/action/generateAction.test.js:212-214 | deleting the first user of the second post leaves only `{name: 'name2'}` |
| ActionExamples.SecondPhoneDeleted | test/action/generateAction.test.js:231-233 | deleting the user's second phone leaves only the first |
| ActionExamples.UsersSwapped | test/action/generateAction.test.js:296-304 | swapping the second post's two users gives `[{name: 'name2'}, {name: 'name1'}]` |
| ActionExamples.PhonesSwapped | test/action/generateAction.test.js:322-331 | swapping the user's two phones gives `[{type: 'C', …}, {type: 'H', …}]` |
| ActionExamples.UpdateArrayItemCase | test/action/generateAction.test.js:44-62 | an id resolving to the first comment's text of the first post, updated to `'zzz'`, gives UPDATE_ARRAY with `posts`, `'id1'` and that post with the text set |
| ActionExamples.UpdateArrayItemExample | test/action/generateAction.test.js:44-62 | `posts/0/comment/0/text` updated to `'zzz'` gives UPDATE_ARRAY with `posts`, `'id1'` and the first post with the text set |
| ActionExamples.UpdateObjectWithPathCase | test/action/generateAction.test.js:64-82 | an id resolving to the user's first phone type, updated to `'C'`, gives UPDATE_OBJECT with `user`, `""` and the user with the type set |
| ActionExamples.UpdateObjectWithPathExample | test/action/generateAction.test.js:64-82 | `user/info/phone/0/type` updated to `'C'` gives UPDATE_OBJECT with `user`, `""` and the user with the type set |
| ActionExamples.CreateRootArrayItemExample | test/action/generateAction.test.js:86-110 | create at `posts` gives CREATE_ARRAY with `posts`, no id and the new post verbatim |
| ActionExamples.CreateArrayItemInArrayCase | test/action/generateAction.test.js:112-132 | an id resolving to the first post's users, created without relation, gives UPDATE_ARRAY with `'id1'` and the post with the user pushed |
| ActionExamples.CreateArrayItemInArrayExample | test/action/generateAction.test.js:112-132 | create at `posts/0/users` gives UPDATE_ARRAY with `posts`, `'id1'` and the first post with `{name: ''}` pushed on its users |
| ActionExamples.CreateArrayItemInObjectCase | test/action/generateAction.test.js:134-155 | an id resolving to the user's phones, created without relation, gives UPDATE_OBJECT with `""` and the user with the phone pushed |
| ActionExamples.CreateArrayItemInObjectExample | test/action/generateAction.test.js:134-155 | create at `user/info/phone` gives UPDATE_OBJECT with `user`, `""` and the user with `{type: '', value: ''}` pushed on its phones |
| ActionExamples.CreateRelationArrayItemCase | test/action/generateAction.test.js:157-182 | an id resolving to the first post's users, created with a relation, gives CREATE_AND_CONNECT with path `users` and the raw value |
| ActionExamples.CreateRelationArrayItemExample | test/action/generateAction.test.js:157-182 | create with a relation at `posts/0/users` gives CREATE_AND_CONNECT with `posts`, `'id1'`, path `users` and the raw value |
| ActionExamples.DeleteRootArrayItemCase | test/action/generateAction.test.js:186-199 | an id resolving to the first post, deleted, gives DELETE_ARRAY with `posts` and `'id1'` |
| ActionExamples.DeleteRootArrayItemExample | test/action/generateAction.test.js:186-199 | delete at `posts/0` gives DELETE_ARRAY with `posts` and `'id1'` only |
| ActionExamples.DeleteArrayItemInArrayCase | test/action/generateAction.test.js:201-218 | an id resolving to the second post's first user, deleted, gives UPDATE_ARRAY with `'id2'` and the post without that user |
| ActionExamples.DeleteArrayItemInArrayExample | test/action/generateAction.test.js:201-218 | delete at `posts/1/users/0` gives UPDATE_ARRAY with `posts`, `'id2'` and the second post without its first user |
| ActionExamples.DeleteArrayItemInObjectCase | test/action/generateAction.test.js:220-237 | an id resolving to the user's second phone, deleted, gives UPDATE_OBJECT with `""` and the user without that phone |
| ActionExamples.DeleteArrayItemInObjectExample | test/action/generateAction.test.js:220-237 | delete at `user/info/phone/1` gives UPDATE_OBJECT with `user`, `""` and the user without its second phone |
| ActionExamples.DeleteRelationArrayItemCase | test/action/generateAction.test.js:239-263 | an id resolving to the first post's users, deleted with a relation, gives DISCONNECT_AND_DELETE with path `users` and the raw value |
| ActionExamples.DeleteRelationArrayItemExample | test/action/generateAction.test.js:239-263 | delete with a relation at `posts/0/users` gives DISCONNECT_AND_DELETE with `posts`, `'id1'`, path `users` and `{id: 'user2'}` |
| ActionExamples.SwapRootArrayItemCase | test/action/generateAction.test.js:267-280 | two ids resolving to the two posts, swapped, give NOOP with an empty payload |
| ActionExamples.SwapRootArrayItemExample | test/action/generateAction.test.js:267-280 | swapping `posts/0` and `posts/1` gives NOOP with an empty payload |
| ActionExamples.UsersSwappable | test/action/generateAction.test.js:282-306 | the second post's two users can be swapped |
| ActionExamples.UsersSwapAction | test/action/generateAction.test.js:282-306 | swapping them gives UPDATE_ARRAY with `posts`, `'id2'` and the post with the users exchanged |
| ActionExamples.SwapArrayItemInArrayCase | test/action/generateAction.test.js:282-306 | two ids resolving to the second post's two users, swapped, give UPDATE_ARRAY with the users exchanged |
| ActionExamples.SwapArrayItemInArrayExample | test/action/generateAction.test.js:282-306 | swapping `posts/1/users/0` and `posts/1/users/1` gives UPDATE_ARRAY with `posts`, `'id2'` and the second post with its users exchanged |
| ActionExamples.PhonesSwappable | test/action/generateAction.test.js:308-334 | the user's two phones can be swapped |
| ActionExamples.PhonesSwapAction | test/action/generateAction.test.js:308-334 | swapping them gives UPDATE_OBJECT with `user`, `""` and the user with the phones exchanged |
| ActionExamples.SwapArrayItemInObjectCase | test/action/generateAction.test.js:308-334 | two ids resolving to the user's two phones, swapped, give UPDATE_OBJECT with the phones exchanged |
| ActionExamples.SwapArrayItemInObjectExample | test/action/generateAction.test.js:308-334 | swapping `user/info/phone/0` and `user/info/phone/1` gives UPDATE_OBJECT with `user`, `""` and the user with its phones exchanged |
| ActionExamples.ConnectCase | test/action/generateAction.test.js:338-359 | an id resolving to the first post's users, connected, gives CONNECT with path `users` and the raw value |
| ActionExamples.ConnectExample | test/action/generateAction.test.js:338-359 | connect at `posts/0/users` gives CONNECT with `posts`, `'id1'`, path `users` and `{id: 'id1'}` |
| ActionExamples.DisconnectCase | test/action/generateAction.test.js:363-384 | an id resolving to the first post's users, disconnected, gives DISCONNECT with path `users` and the raw value |
| ActionExamples.DisconnectExample | test/action/generateAction.test.js:363-384 | disconnect at `posts/0/users` gives DISCONNECT with `posts`, `'id1'`, path `users` and `{id: 'id1'}` |

## Left out

- The implementation in `src/action/generateAction` is not part of this model.
  The branch structure of `Actions.SingleAction` and `Actions.SwapAction` is
  a reconstruction from the suite's assertions, extended to requests the
  suite does not make as listed below.
- Conversion between plain objects and persistent collections (`fromJS`,
  `toJS`) and structural sharing are left out. Documents are plain values, and
  the suite's rewrite of `payload.value` into a plain object is the identity
  here.
- Ids that do not resolve (a missing root field, a single token that does
  not name a root list, an index out of range, a non-numeric index token) are
  excluded by the precondition `Actions.Valid`, not modelled as failures.
  `Actions.Resolve` returns `None` for them.
- Ids that resolve but name a missing field below the owner are excluded by
  `Actions.Valid` too: an update, a connect, a disconnect and a create or
  delete with a relation need the field (`ActionProperties.MissingTargetInvalid`),
  a create without a relation needs a list there, and a delete an existing
  list element or map field.
- These combinations are excluded by `Actions.Valid`.
  `Actions.Select` has no entry for a create with a relation at a bare root
  collection, any update, delete, swap, connect or disconnect at a bare root
  collection, or a connect or disconnect without a relation.
  `Actions.Applicable` rejects a create, update, connect or disconnect with no
  value, a delete with a relation and no value, and a relation action at a
  record itself (empty sub-path). A swap needs two ids.
- Some requests the suite never makes are given an action by extending the
  decision table (`Actions.Select`) uniformly; the unseen implementation may
  differ on them:
  - an update of a root list element as a whole (`posts/0`): UPDATE_ARRAY
    with the element's id and the new value replacing the whole record;
  - an update or swap with a relation present: the relation flag is ignored,
    so the action is the owner's UPDATE_ARRAY or UPDATE_OBJECT;
  - a delete without a relation of a map field below a record (`user/name`):
    the owner comes back without that key;
  - a relation action (create or delete with a relation, connect,
    disconnect) below a root map (`user/info`): the same payload as below a
    root list, with id `""`;
  - a relation action at a nested field of a record (`posts/0/comment/0`):
    the path is the whole sub-path joined with `/`.
- The relation descriptor is reduced to "present or absent". Its `to`, its
  `type` (`toMany`, `toOne`) and the empty `{}` the connect tests pass do not
  change the action.
- A relation action's value is passed through untouched. Its shape (a record,
  an id object) is not checked.
- A root list element's id is whatever its `id` field holds, as a `Doc`.
  `Actions.IdField` answers `undefined` when the element has no `id` field.
- Numbers are unbounded integers. The persistent list's 32-bit index limit is
  not modelled: any canonical decimal token indexes a list when it is in range.
- The reducer that consumes the actions, and the test runner, are left out.

=== FILE: action_properties.dfy ===
/**
 What `generateAction` promises, group by group: the owning record it emits
 is the owning record with exactly the requested change made, and writing
 that record back at the owner's place gives the same document as making
 the change at the full path.
 */
module ActionProperties {
  import opened Wrappers
  import opened Paths
  import opened Documents
  import opened Actions

  /** The full token path of a single-id request. */
  function Tokens(req: Request): seq<string>
    requires req.id.Single?
  {
    Split(req.id.path)
  }

  /** The record-update action type for an owner living in a root list or a root object. */
  function RecordKind(loc: Location): ActionType {
    if loc.ArrayRecord? then UPDATE_ARRAY else UPDATE_OBJECT
  }

  /** A path whose first token names a root list resolves to the element its second token indexes. */
  lemma ResolveListOwner(root: Doc, path: string, key: string, tok: string, sub: seq<string>)
    requires Split(path) == [key, tok] + sub
    requires Child(root, key).Some? && Child(root, key).value.List?
    requires ParseIndex(tok).Some? && ParseIndex(tok).value < |Child(root, key).value.items|
    ensures Resolve(root, path)
      == Some(ArrayRecord(key, ParseIndex(tok).value, Child(root, key).value.items[ParseIndex(tok).value], sub))
  {
    var tokens := Split(path);
    assert tokens[0] == key && tokens[1] == tok && tokens[2..] == sub;
  }

  /** A path whose first token names a root map resolves to that map, the rest being the sub-path. */
  lemma ResolveMapOwner(root: Doc, path: string, key: string, sub: seq<string>)
    requires |sub| > 0 && Split(path) == [key] + sub
    requires Child(root, key).Some? && Child(root, key).value.Map?
    ensures Resolve(root, path) == Some(ObjectRecord(key, Child(root, key).value, sub))
  {
    var tokens := Split(path);
    assert tokens[0] == key && tokens[1..] == sub;
  }

  /** An id below an owner, split: the owner path, the parent of the sub-path, and an index token. */
  lemma SiblingTokens(root: Doc, path: string, i: nat)
    requires Resolve(root, path).Some? && !Resolve(root, path).value.Collection?
    requires |Resolve(root, path).value.sub| > 0
    requires ParseIndex(Last(Resolve(root, path).value.sub)) == Some(i)
    ensures
      var loc := Resolve(root, path).value;
      Split(path) == loc.OwnerPath() + Parent(loc.sub) + [IndexToken(i)]
  {
    var loc := Resolve(root, path).value;
    ParentLast(loc.sub);
    ParseIndexIff(Last(loc.sub), i);
    assert loc.OwnerPath() + loc.sub == loc.OwnerPath() + Parent(loc.sub) + [Last(loc.sub)];
  }

  /** A resolved owning record sits at its owner path, and the full path runs through it. */
  lemma OwnerReachesFullPath(req: Request)
    requires Valid(req) && req.id.Single? && !Located(req).Collection?
    ensures Tokens(req) == Located(req).OwnerPath() + Located(req).sub
    ensures GetIn(req.rootValue, Located(req).OwnerPath()) == Some(Located(req).record)
    ensures GetIn(req.rootValue, Tokens(req)) == GetIn(Located(req).record, Located(req).sub)
  {
    var loc := Located(req);
    GetInConcat(req.rootValue, loc.OwnerPath(), loc.sub);
  }

  /**
   An id that reads nothing in the document has no action for an update, a
   connect, a disconnect or any relation request: each of them needs the
   field the id names, and a bare collection id always reads its list.
   */
  lemma MissingTargetInvalid(req: Request)
    requires req.id.Single? && !Defined(req.rootValue, Tokens(req))
    requires || req.updateType == Update || req.updateType == Connect
             || req.updateType == Disconnect || req.hasRelation
    ensures !Valid(req)
  {
    if Valid(req) && !Located(req).Collection? {
      OwnerReachesFullPath(req);
    }
  }

  /** An update with a value at any existing field below a record has an action. */
  lemma UpdateValid(req: Request)
    requires req.id.Single? && req.updateType == Update && req.value.Some?
    requires Resolve(req.rootValue, req.id.path).Some?
    requires !Resolve(req.rootValue, req.id.path).value.Collection?
    requires Defined(req.rootValue, Tokens(req))
    ensures Valid(req)
  {
    var loc := Resolve(req.rootValue, req.id.path).value;
    GetInConcat(req.rootValue, loc.OwnerPath(), loc.sub);
  }

  /** A create without a relation at any list below a record has an action. */
  lemma CreateValid(req: Request)
    requires req.id.Single? && req.updateType == Create && req.value.Some? && !req.hasRelation
    requires Resolve(req.rootValue, req.id.path).Some?
    requires !Resolve(req.rootValue, req.id.path).value.Collection?
    requires IsListAt(req.rootValue, Tokens(req))
    ensures Valid(req)
  {
    var loc := Resolve(req.rootValue, req.id.path).value;
    GetInConcat(req.rootValue, loc.OwnerPath(), loc.sub);
  }

  /** A delete without a relation of any existing field nested below a record has an action. */
  lemma DeleteNestedValid(req: Request)
    requires req.id.Single? && req.updateType == Delete && !req.hasRelation
    requires Resolve(req.rootValue, req.id.path).Some?
    requires Resolve(req.rootValue, req.id.path).value.Place() in {InArrayItem, InObject}
    requires Defined(req.rootValue, Tokens(req))
    ensures Valid(req)
  {
    var loc := Resolve(req.rootValue, req.id.path).value;
    GetInConcat(req.rootValue, loc.OwnerPath(), loc.sub);
    ParentDefined(loc.record, loc.sub);
  }

  /**
   Update: the owner comes back with the value at the sub-path and nothing
   else changed, under UPDATE_ARRAY (with the element's id) or
   UPDATE_OBJECT (with the empty id).
   */
  lemma UpdateSetsLeaf(req: Request)
    requires Valid(req) && req.id.Single? && req.updateType == Update
    ensures Defined(req.rootValue, Tokens(req))
    ensures
      var loc := Located(req);
      var a := GenerateAction(req);
      && a.kind == RecordKind(loc)
      && a.payload.KeyIdValue?
      && a.payload.key == Tokens(req)[0]
      && a.payload.id == (if loc.ArrayRecord? then IdField(loc.record) else EmptyId)
      && GetIn(a.payload.value, loc.sub) == req.value
      && (forall q :: Diverges(loc.sub, q) ==> GetIn(a.payload.value, q) == GetIn(loc.record, q))
      && SetIn(req.rootValue, loc.OwnerPath(), a.payload.value)
         == SetIn(req.rootValue, Tokens(req), req.value.value)
  {
    var loc := Located(req);
    OwnerReachesFullPath(req);
    SetInFrameAll(loc.record, loc.sub, req.value.value);
    SetInConcat(req.rootValue, loc.OwnerPath(), loc.sub, req.value.value);
  }

  /** Create at a bare root collection: CREATE_ARRAY, no id, the value verbatim. */
  lemma CreateAtCollection(req: Request)
    requires Valid(req) && req.id.Single? && req.updateType == Create
    requires !req.hasRelation && Located(req).Collection?
    ensures GenerateAction(req) == Action(CREATE_ARRAY, KeyIdValue(req.id.path, NoId, req.value.value))
  {
    JoinSplit(req.id.path);
  }

  /**
   Create below an owning record without a relation: the value is pushed on
   the end of the list at the sub-path and nothing else in the owner moves.
   */
  lemma CreateAppends(req: Request)
    requires Valid(req) && req.id.Single? && req.updateType == Create
    requires !req.hasRelation && !Located(req).Collection?
    ensures IsListAt(req.rootValue, Tokens(req))
    ensures
      var loc := Located(req);
      var a := GenerateAction(req);
      && a.kind == RecordKind(loc)
      && a.payload.KeyIdValue?
      && a.payload.id == loc.OwnerId()
      && IsListAt(a.payload.value, loc.sub)
      && ListAt(a.payload.value, loc.sub) == ListAt(req.rootValue, Tokens(req)) + [req.value.value]
      && (forall q :: Diverges(loc.sub, q) ==> GetIn(a.payload.value, q) == GetIn(loc.record, q))
      && SetIn(req.rootValue, loc.OwnerPath(), a.payload.value)
         == AppendAt(req.rootValue, Tokens(req), req.value.value)
  {
    var loc := Located(req);
    OwnerReachesFullPath(req);
    AppendAtConcat(req.rootValue, loc.OwnerPath(), loc.sub, req.value.value);
  }

  /** The update types whose action only names a relation: the record is not recomputed. */
  predicate IsRelationRequest(req: Request) {
    || (req.hasRelation && (req.updateType == Create || req.updateType == Delete))
    || req.updateType == Connect
    || req.updateType == Disconnect
  }

  /** The action type a relation request emits for its update type. */
  function RelationKind(u: UpdateType): ActionType
    requires u != Update && u != Swap
  {
    match u
    case Create => CREATE_AND_CONNECT
    case Delete => DISCONNECT_AND_DELETE
    case Connect => CONNECT
    case Disconnect => DISCONNECT
  }

  /**
   Relation actions (create or delete with a relation, connect, disconnect):
   the id names an existing field below the owner; the payload is the
   owner's key and id, the sub-path as a string, and the raw value; the id
   is the owner path followed by that sub-path.
   */
  lemma RelationPayload(req: Request)
    requires Valid(req) && req.id.Single? && IsRelationRequest(req)
    ensures Defined(req.rootValue, Tokens(req))
    ensures
      var loc := Located(req);
      var a := GenerateAction(req);
      && !loc.Collection?
      && a.kind == RelationKind(req.updateType)
      && a.payload.KeyIdPathValue?
      && a.payload.key == Tokens(req)[0]
      && a.payload.id == loc.OwnerId()
      && a.payload.value == req.value.value
      && Split(a.payload.path) == loc.sub
      && Join(loc.OwnerPath()) + [Separator] + a.payload.path == req.id.path
  {
    var loc := Located(req);
    OwnerReachesFullPath(req);
    SplitJoin(loc.sub);
    JoinSplit(req.id.path);
    JoinConcat(loc.OwnerPath(), loc.sub);
  }

  /** Delete of a root list element: DELETE_ARRAY with only the key and the element's id. */
  lemma DeleteRootItem(req: Request)
    requires Valid(req) && req.id.Single? && req.updateType == Delete
    requires !req.hasRelation && Located(req).Place() == RootItem
    ensures Defined(req.rootValue, Tokens(req))
    ensures GenerateAction(req)
      == Action(DELETE_ARRAY, KeyId(Tokens(req)[0], IdField(GetIn(req.rootValue, Tokens(req)).value)))
  {
    OwnerReachesFullPath(req);
  }

  /**
   Delete below an owning record: exactly the named element leaves its list
   (the rest keep their order), the owner's id is kept, and writing the
   owner back equals deleting at the full path.
   */
  lemma DeleteNested(req: Request)
    requires Valid(req) && req.id.Single? && req.updateType == Delete
    requires !req.hasRelation && Located(req).Place() != RootItem
    ensures HasChildAt(req.rootValue, Tokens(req))
    ensures
      var loc := Located(req);
      var a := GenerateAction(req);
      && a.kind == RecordKind(loc)
      && a.payload.KeyIdValue?
      && a.payload.id == loc.OwnerId()
      && (IsListAt(loc.record, Parent(loc.sub)) ==>
            var before := ListAt(loc.record, Parent(loc.sub));
            var i := ParseIndex(Last(loc.sub)).value;
            && IsListAt(a.payload.value, Parent(loc.sub))
            && ListAt(a.payload.value, Parent(loc.sub)) == before[..i] + before[i + 1..])
      && SetIn(req.rootValue, loc.OwnerPath(), a.payload.value) == DeleteAt(req.rootValue, Tokens(req))
  {
    var loc := Located(req);
    OwnerReachesFullPath(req);
    DeleteAtConcat(req.rootValue, loc.OwnerPath(), loc.sub);
  }

  /** Swapping two root-level records is a NOOP with an empty payload. */
  lemma SwapRootItems(req: Request)
    requires Valid(req) && req.id.Pair?
    requires Resolve(req.rootValue, req.id.firstId).value.Place() == RootItem
    ensures GenerateAction(req) == Action(NOOP, Empty)
  {
  }

  /**
   Swapping two elements of one list inside an owning record: in the
   document with the emitted owner written back, the list at the shared
   path has exactly the two named elements exchanged, each id now reads
   what the other read before, and everything outside that list is
   unchanged.
   */
  lemma SwapSiblings(req: Request)
    requires Valid(req) && req.id.Pair?
    requires Resolve(req.rootValue, req.id.firstId).value.Place() != RootItem
    ensures
      var root := req.rootValue;
      var x := Resolve(root, req.id.firstId).value;
      var y := Resolve(root, req.id.secondId).value;
      var a := GenerateAction(req);
      && a.kind == RecordKind(x)
      && a.payload.KeyIdValue?
      && a.payload.key == Split(req.id.firstId)[0]
      && a.payload.id == x.OwnerId()
      && Defined(root, x.OwnerPath())
      && var after := SetIn(root, x.OwnerPath(), a.payload.value);
      && var full := x.OwnerPath() + Parent(x.sub);
      && ParseIndex(Last(x.sub)).Some? && ParseIndex(Last(y.sub)).Some?
      && var i := ParseIndex(Last(x.sub)).value;
      && var j := ParseIndex(Last(y.sub)).value;
      && IsListAt(root, full) && i < |ListAt(root, full)| && j < |ListAt(root, full)|
      && after == SwapAt(root, full, i, j)
      && IsListAt(after, full)
      && |ListAt(after, full)| == |ListAt(root, full)|
      && ListAt(after, full)[i] == ListAt(root, full)[j]
      && ListAt(after, full)[j] == ListAt(root, full)[i]
      && (forall k :: 0 <= k < |ListAt(root, full)| && k != i && k != j ==>
            ListAt(after, full)[k] == ListAt(root, full)[k])
      && GetIn(after, Split(req.id.firstId)) == GetIn(root, Split(req.id.secondId))
      && GetIn(after, Split(req.id.secondId)) == GetIn(root, Split(req.id.firstId))
      && (forall q :: Diverges(full, q) ==> GetIn(after, q) == GetIn(root, q))
  {
    var root := req.rootValue;
    var x := Resolve(root, req.id.firstId).value;
    var y := Resolve(root, req.id.secondId).value;
    SiblingIndices(root, req.id.firstId, req.id.secondId);
    var list := Parent(x.sub);
    var i := ParseIndex(Last(x.sub)).value;
    var j := ParseIndex(Last(y.sub)).value;
    var full := x.OwnerPath() + list;
    var a := GenerateAction(req);
    assert a == RecordAction(x, SwapAt(x.record, list, i, j));
    var after := SetIn(root, x.OwnerPath(), a.payload.value);
    assert after == SwapAt(root, full, i, j) by {
      SwapAtConcat(root, x.OwnerPath(), list, i, j);
    }
    // each full id is the owner path, the list path, and one index token
    SiblingTokens(root, req.id.firstId, i);
    SiblingTokens(root, req.id.secondId, j);
    SwapAtReads(root, full, i, j);
  }
}

=== FILE: documents.dfy ===
/**
 The JSON-like document the actions are computed over, and the deep access
 helpers of the persistent-collection library: `getIn`, `setIn`,
 `updateIn(path, list => list.push(v))` and
 `updateIn(parent, list => list.delete(i))`. The exchange of two list
 elements (`SwapAt`) is this model's own operation: the library has none,
 and the expected values of the swap cases are written out as literal lists.
 Paths are token sequences; a list is indexed by a canonical decimal token,
 a map by its key.
 */
module Documents {
  import opened Wrappers
  import opened Paths

  datatype Doc =
    | Str(text: string)
    | Num(number: int)
    | List(items: seq<Doc>)
    | Map(fields: map<string, Doc>)

  /** One step of `getIn`. */
  function Child(d: Doc, tok: string): Option<Doc>
  {
    match d
    case List(items) =>
      (match ParseIndex(tok)
       case Some(i) => if i < |items| then Some(items[i]) else None
       case None => None)
    case Map(fields) => if tok in fields then Some(fields[tok]) else None
    case _ => None
  }

  /** `getIn(path)`: `None` where the persistent library answers `undefined`. */
  function GetIn(d: Doc, path: seq<string>): Option<Doc>
    decreases |path|
  {
    if |path| == 0 then Some(d)
    else
      match Child(d, path[0])
      case None => None
      case Some(c) => GetIn(c, path[1..])
  }

  predicate Defined(d: Doc, path: seq<string>) {
    GetIn(d, path).Some?
  }

  predicate IsListAt(d: Doc, path: seq<string>) {
    Defined(d, path) && GetIn(d, path).value.List?
  }

  function ListAt(d: Doc, path: seq<string>): seq<Doc>
    requires IsListAt(d, path)
  {
    GetIn(d, path).value.items
  }

  /** The two paths part ways at some position: neither is a prefix of the other. */
  predicate Diverges(p: seq<string>, q: seq<string>)
    decreases |p|
  {
    |p| > 0 && |q| > 0 && (p[0] != q[0] || Diverges(p[1..], q[1..]))
  }

  /** Replace one existing child. */
  function SetChild(d: Doc, tok: string, v: Doc): (r: Doc)
    requires Child(d, tok).Some?
    ensures Child(r, tok) == Some(v)
  {
    if d.List? then List(d.items[ParseIndex(tok).value := v])
    else Map(d.fields[tok := v])
  }

  /** `setIn(path, v)` at a path that already exists. */
  function SetIn(d: Doc, path: seq<string>, v: Doc): (r: Doc)
    requires Defined(d, path)
    ensures GetIn(r, path) == Some(v)
    decreases |path|
  {
    if |path| == 0 then v
    else SetChild(d, path[0], SetIn(Child(d, path[0]).value, path[1..], v))
  }

  lemma ChildSetChildOther(d: Doc, t: string, v: Doc, u: string)
    requires Child(d, t).Some?
    requires t != u
    ensures Child(SetChild(d, t, v), u) == Child(d, u)
  {
    if d.List? && ParseIndex(u).Some? && ParseIndex(u) == ParseIndex(t) {
      ParseIndexInjective(t, u);
    }
  }

  /** `getIn` of a concatenated path walks the first part, then the second. */
  lemma {:induction false} GetInConcat(d: Doc, p: seq<string>, q: seq<string>)
    ensures GetIn(d, p + q) == if Defined(d, p) then GetIn(GetIn(d, p).value, q) else None
    decreases |p|
  {
    if |p| > 0 {
      assert (p + q)[0] == p[0];
      assert (p + q)[1..] == p[1..] + q;
      if Child(d, p[0]).Some? {
        GetInConcat(Child(d, p[0]).value, p[1..], q);
      }
    } else {
      assert p + q == q;
    }
  }

  /** `getIn` along one token is one step. */
  lemma GetInOne(d: Doc, a: string)
    ensures GetIn(d, [a]) == Child(d, a)
  {
    assert [a][1..] == [];
  }

  /** `getIn` along two tokens is two steps, undefined when the first is. */
  lemma GetInTwo(d: Doc, a: string, b: string)
    ensures GetIn(d, [a, b]) == if Child(d, a).Some? then Child(Child(d, a).value, b) else None
  {
    assert [a, b][1..] == [b];
    if Child(d, a).Some? {
      GetInOne(Child(d, a).value, b);
    }
  }

  /** Reading below the written path reads inside the written value. */
  lemma {:induction false} GetSetExtend(d: Doc, p: seq<string>, v: Doc, q: seq<string>)
    requires Defined(d, p)
    ensures GetIn(SetIn(d, p, v), p + q) == GetIn(v, q)
  {
    GetInConcat(SetIn(d, p, v), p, q);
  }

  /** Writing at `p` leaves every path that parts ways with `p` as it was. */
  lemma {:induction false} SetInFrame(d: Doc, p: seq<string>, v: Doc, q: seq<string>)
    requires Defined(d, p)
    requires Diverges(p, q)
    ensures GetIn(SetIn(d, p, v), q) == GetIn(d, q)
    decreases |p|
  {
    var c := Child(d, p[0]).value;
    if p[0] != q[0] {
      ChildSetChildOther(d, p[0], SetIn(c, p[1..], v), q[0]);
    } else {
      SetInFrame(c, p[1..], v, q[1..]);
    }
  }

  lemma SetInFrameAll(d: Doc, p: seq<string>, v: Doc)
    requires Defined(d, p)
    ensures forall q :: Diverges(p, q) ==> GetIn(SetIn(d, p, v), q) == GetIn(d, q)
  {
    forall q | Diverges(p, q)
      ensures GetIn(SetIn(d, p, v), q) == GetIn(d, q)
    {
      SetInFrame(d, p, v, q);
    }
  }

  /** Writing back the value already at a path changes nothing. */
  lemma {:induction false} SetInSame(d: Doc, p: seq<string>)
    requires Defined(d, p)
    ensures SetIn(d, p, GetIn(d, p).value) == d
    decreases |p|
  {
    if |p| > 0 {
      var c := Child(d, p[0]).value;
      SetInSame(c, p[1..]);
      if d.List? {
        assert d.items[ParseIndex(p[0]).value := c] == d.items;
      } else {
        assert d.fields[p[0] := c] == d.fields;
      }
    }
  }

  /** The second of two writes at one path wins. */
  lemma {:induction false} SetInTwice(d: Doc, p: seq<string>, v: Doc, w: Doc)
    requires Defined(d, p)
    ensures SetIn(SetIn(d, p, v), p, w) == SetIn(d, p, w)
    decreases |p|
  {
    if |p| > 0 {
      var c := Child(d, p[0]).value;
      SetInTwice(c, p[1..], v, w);
    }
  }

  /** Writing at `p + q` is writing, at `p`, the sub-document with `q` written. */
  lemma {:induction false} SetInConcat(d: Doc, p: seq<string>, q: seq<string>, v: Doc)
    requires Defined(d, p) && Defined(GetIn(d, p).value, q)
    ensures Defined(d, p + q)
    ensures SetIn(d, p + q, v) == SetIn(d, p, SetIn(GetIn(d, p).value, q, v))
    decreases |p|
  {
    GetInConcat(d, p, q);
    if |p| == 0 {
      assert p + q == q;
    } else {
      var c := Child(d, p[0]).value;
      assert (p + q)[0] == p[0];
      assert (p + q)[1..] == p[1..] + q;
      SetInConcat(c, p[1..], q, v);
    }
  }

  /** `updateIn(path, list => list.push(v))`. */
  function AppendAt(d: Doc, path: seq<string>, v: Doc): (r: Doc)
    requires IsListAt(d, path)
    ensures IsListAt(r, path)
    ensures ListAt(r, path) == ListAt(d, path) + [v]
    ensures forall q :: Diverges(path, q) ==> GetIn(r, q) == GetIn(d, q)
  {
    var appended := List(ListAt(d, path) + [v]);
    SetInFrameAll(d, path, appended);
    SetIn(d, path, appended)
  }

  /** The container at `path` without its child named `tok`. */
  function RemoveChild(container: Doc, tok: string): Doc
    requires Child(container, tok).Some?
  {
    if container.List? then
      var i := ParseIndex(tok).value;
      List(container.items[..i] + container.items[i + 1..])
    else Map(container.fields - {tok})
  }

  function Parent(path: seq<string>): seq<string>
    requires |path| > 0
  {
    path[..|path| - 1]
  }

  function Last(path: seq<string>): string
    requires |path| > 0
  {
    path[|path| - 1]
  }

  lemma ParentLast(path: seq<string>)
    requires |path| > 0
    ensures Parent(path) + [Last(path)] == path
  {
  }

  /** The container at the parent of `path` exists and holds the last token as a child. */
  predicate HasChildAt(d: Doc, path: seq<string>) {
    && |path| > 0
    && Defined(d, Parent(path))
    && Child(GetIn(d, Parent(path)).value, Last(path)).Some?
  }

  /** A child of a list is named by the canonical spelling of an index within it. */
  lemma ListChild(d: Doc, path: seq<string>)
    requires HasChildAt(d, path) && IsListAt(d, Parent(path))
    ensures ParseIndex(Last(path)).Some?
    ensures ParseIndex(Last(path)).value < |ListAt(d, Parent(path))|
  {
  }

  /** A non-empty path is defined exactly when its parent holds its last token. */
  lemma ParentDefined(d: Doc, path: seq<string>)
    requires |path| > 0
    ensures Defined(d, path) <==> HasChildAt(d, path)
  {
    ParentLast(path);
    GetInConcat(d, Parent(path), [Last(path)]);
  }

  /**
   `updateIn(parent, list => list.delete(i))`, or `delete(key)` on a map: a list loses the element and closes the gap, keeping the
   order of the rest; a map loses the key. Nothing outside the container moves.
   */
  function DeleteAt(d: Doc, path: seq<string>): (r: Doc)
    requires HasChildAt(d, path)
    ensures Defined(r, Parent(path))
    ensures IsListAt(d, Parent(path)) ==>
      var old_ := ListAt(d, Parent(path));
      var i := ParseIndex(Last(path)).value;
      && IsListAt(r, Parent(path))
      && |ListAt(r, Parent(path))| == |old_| - 1
      && (forall k :: 0 <= k < i ==> ListAt(r, Parent(path))[k] == old_[k])
      && (forall k :: i <= k < |old_| - 1 ==> ListAt(r, Parent(path))[k] == old_[k + 1])
    ensures !IsListAt(d, Parent(path)) ==>
      GetIn(r, Parent(path)).value.Map? &&
      GetIn(r, Parent(path)).value.fields == GetIn(d, Parent(path)).value.fields - {Last(path)}
    ensures forall q :: Diverges(Parent(path), q) ==> GetIn(r, q) == GetIn(d, q)
  {
    var container := GetIn(d, Parent(path)).value;
    var removed := RemoveChild(container, Last(path));
    SetInFrameAll(d, Parent(path), removed);
    SetIn(d, Parent(path), removed)
  }

  /** The list with its elements at `i` and `j` exchanged. */
  function SwapItems(items: seq<Doc>, i: nat, j: nat): seq<Doc>
    requires i < |items| && j < |items|
  {
    items[i := items[j]][j := items[i]]
  }

  /**
   Exchange elements `i` and `j` of the list at `path`; every other element
   and everything outside the list stays put.
   */
  function SwapAt(d: Doc, path: seq<string>, i: nat, j: nat): (r: Doc)
    requires IsListAt(d, path) && i < |ListAt(d, path)| && j < |ListAt(d, path)|
    ensures IsListAt(r, path)
    ensures |ListAt(r, path)| == |ListAt(d, path)|
    ensures ListAt(r, path)[i] == ListAt(d, path)[j]
    ensures ListAt(r, path)[j] == ListAt(d, path)[i]
    ensures forall k :: 0 <= k < |ListAt(d, path)| && k != i && k != j ==>
      ListAt(r, path)[k] == ListAt(d, path)[k]
    ensures multiset(ListAt(r, path)) == multiset(ListAt(d, path))
    ensures forall q :: Diverges(path, q) ==> GetIn(r, q) == GetIn(d, q)
  {
    var swapped := List(SwapItems(ListAt(d, path), i, j));
    SetInFrameAll(d, path, swapped);
    SetIn(d, path, swapped)
  }

  /** After a swap, the path of each element reads what the other's read before. */
  lemma SwapAtReads(d: Doc, path: seq<string>, i: nat, j: nat)
    requires IsListAt(d, path) && i < |ListAt(d, path)| && j < |ListAt(d, path)|
    ensures GetIn(SwapAt(d, path, i, j), path + [IndexToken(i)]) == GetIn(d, path + [IndexToken(j)])
    ensures GetIn(SwapAt(d, path, i, j), path + [IndexToken(j)]) == GetIn(d, path + [IndexToken(i)])
  {
    var r := SwapAt(d, path, i, j);
    DigitsValueOfIndexToken(i);
    DigitsValueOfIndexToken(j);
    GetInConcat(r, path, [IndexToken(i)]);
    GetInConcat(r, path, [IndexToken(j)]);
    GetInConcat(d, path, [IndexToken(i)]);
    GetInConcat(d, path, [IndexToken(j)]);
    GetInOne(GetIn(r, path).value, IndexToken(i));
    GetInOne(GetIn(r, path).value, IndexToken(j));
    GetInOne(GetIn(d, path).value, IndexToken(i));
    GetInOne(GetIn(d, path).value, IndexToken(j));
  }

  /** Swapping the same two elements twice restores the document. */
  lemma SwapAtInvolutive(d: Doc, path: seq<string>, i: nat, j: nat)
    requires IsListAt(d, path) && i < |ListAt(d, path)| && j < |ListAt(d, path)|
    ensures SwapAt(SwapAt(d, path, i, j), path, i, j) == d
  {
    var items := ListAt(d, path);
    var once := SwapAt(d, path, i, j);
    SetInTwice(d, path, List(SwapItems(items, i, j)), List(SwapItems(ListAt(once, path), i, j)));
    assert SwapItems(SwapItems(items, i, j), i, j) == items;
    SetInSame(d, path);
  }

  /** Appending below an owner's path is appending inside the owner. */
  lemma AppendAtConcat(d: Doc, p: seq<string>, q: seq<string>, v: Doc)
    requires Defined(d, p) && IsListAt(GetIn(d, p).value, q)
    ensures IsListAt(d, p + q)
    ensures AppendAt(d, p + q, v) == SetIn(d, p, AppendAt(GetIn(d, p).value, q, v))
  {
    var owner := GetIn(d, p).value;
    GetInConcat(d, p, q);
    SetInConcat(d, p, q, List(ListAt(owner, q) + [v]));
  }

  /** Deleting below an owner's path is deleting inside the owner. */
  lemma DeleteAtConcat(d: Doc, p: seq<string>, q: seq<string>)
    requires Defined(d, p) && HasChildAt(GetIn(d, p).value, q)
    ensures HasChildAt(d, p + q)
    ensures DeleteAt(d, p + q) == SetIn(d, p, DeleteAt(GetIn(d, p).value, q))
  {
    var owner := GetIn(d, p).value;
    assert Parent(p + q) == p + Parent(q);
    assert Last(p + q) == Last(q);
    GetInConcat(d, p, Parent(q));
    var removed := RemoveChild(GetIn(owner, Parent(q)).value, Last(q));
    SetInConcat(d, p, Parent(q), removed);
  }

  /** Swapping below an owner's path is swapping inside the owner. */
  lemma SwapAtConcat(d: Doc, p: seq<string>, q: seq<string>, i: nat, j: nat)
    requires Defined(d, p)
    requires IsListAt(GetIn(d, p).value, q)
    requires i < |ListAt(GetIn(d, p).value, q)| && j < |ListAt(GetIn(d, p).value, q)|
    ensures IsListAt(d, p + q) && ListAt(d, p + q) == ListAt(GetIn(d, p).value, q)
    ensures SwapAt(d, p + q, i, j) == SetIn(d, p, SwapAt(GetIn(d, p).value, q, i, j))
  {
    var owner := GetIn(d, p).value;
    GetInConcat(d, p, q);
    SetInConcat(d, p, q, List(SwapItems(ListAt(owner, q), i, j)));
  }
}

=== FILE: examples_fixture.dfy ===
/**
 The root value of the `generateAction` test suite and one lemma per test
 case, each stating the action the suite expects.
 */
module ActionExamples {
  import opened Wrappers
  import opened Paths
  import opened Documents
  import opened ActionProperties
  import opened Actions

  const Phone: Doc := List([
    Map(map["type" := Str("H"), "value" := Str("xxx")]),
    Map(map["type" := Str("C"), "value" := Str("yyy")])
  ])

  const User: Doc := Map(map[
    "name" := Str("name"),
    "info" := Map(map[
      "address" := Map(map["lat" := Num(23), "lng" := Num(120)]),
      "phone" := Phone
    ])
  ])

  const Comments: Doc := List([
    Map(map["text" := Str("xxx"), "author" := Str("xxx")]),
    Map(map["text" := Str("yyy"), "author" := Str("yyy")])
  ])

  const Post1: Doc := Map(map[
    "id" := Str("id1"),
    "title" := Str("title1"),
    "comment" := Comments,
    "users" := List([Map(map[])])
  ])

  const Post2: Doc := Map(map[
    "id" := Str("id2"),
    "title" := Str("title1"),
    "comment" := Comments,
    "users" := List([Map(map["name" := Str("name1")]), Map(map["name" := Str("name2")])])
  ])

  const RootValue: Doc := Map(map["user" := User, "posts" := List([Post1, Post2])])

  function SingleRequest(path: string, u: UpdateType, value: Option<Doc>, hasRelation: bool): Request {
    Request(Target.Single(path), u, value, hasRelation, RootValue)
  }

  function SwapRequest(first: string, second: string): Request {
    Request(Pair(first, second), Swap, None, false, RootValue)
  }

  /** The tokens of an id, read off a join of them. */
  lemma SplitInto(path: string, tokens: seq<string>)
    requires |tokens| >= 1 && NoSeparator(tokens) && Join(tokens) == path
    ensures Split(path) == tokens
  {
    SplitJoin(tokens);
  }

  // The ids the suite uses, split into tokens.

  lemma PostsTokens(path: string)
    requires path == "posts"
    ensures Split(path) == ["posts"]
  {
    SplitInto(path, ["posts"]);
  }

  lemma CommentTextTokens(path: string)
    requires path == "posts/0/comment/0/text"
    ensures Split(path) == ["posts", "0", "comment", "0", "text"]
  {
    SplitInto(path, ["posts", "0", "comment", "0", "text"]);
  }

  lemma PhoneTypeTokens(path: string)
    requires path == "user/info/phone/0/type"
    ensures Split(path) == ["user", "info", "phone", "0", "type"]
  {
    SplitInto(path, ["user", "info", "phone", "0", "type"]);
  }

  lemma PostUsersTokens(path: string)
    requires path == "posts/0/users"
    ensures Split(path) == ["posts", "0", "users"]
  {
    SplitInto(path, ["posts", "0", "users"]);
  }

  lemma PhoneTokens(path: string)
    requires path == "user/info/phone"
    ensures Split(path) == ["user", "info", "phone"]
  {
    SplitInto(path, ["user", "info", "phone"]);
  }

  lemma FirstPostTokens(path: string)
    requires path == "posts/0"
    ensures Split(path) == ["posts", "0"]
  {
    SplitInto(path, ["posts", "0"]);
  }

  lemma SecondPostTokens(path: string)
    requires path == "posts/1"
    ensures Split(path) == ["posts", "1"]
  {
    SplitInto(path, ["posts", "1"]);
  }

  lemma SecondPostFirstUserTokens(path: string)
    requires path == "posts/1/users/0"
    ensures Split(path) == ["posts", "1", "users", "0"]
  {
    SplitInto(path, ["posts", "1", "users", "0"]);
  }

  lemma SecondPostSecondUserTokens(path: string)
    requires path == "posts/1/users/1"
    ensures Split(path) == ["posts", "1", "users", "1"]
  {
    SplitInto(path, ["posts", "1", "users", "1"]);
  }

  lemma FirstPhoneTokens(path: string)
    requires path == "user/info/phone/0"
    ensures Split(path) == ["user", "info", "phone", "0"]
  {
    SplitInto(path, ["user", "info", "phone", "0"]);
  }

  lemma SecondPhoneTokens(path: string)
    requires path == "user/info/phone/1"
    ensures Split(path) == ["user", "info", "phone", "1"]
  {
    SplitInto(path, ["user", "info", "phone", "1"]);
  }

  // Where those ids lead in the fixture.

  lemma ResolvesFirstPost(path: string, sub: seq<string>)
    requires Split(path) == ["posts", "0"] + sub
    ensures Resolve(RootValue, path) == Some(ArrayRecord("posts", 0, Post1, sub))
  {
    assert ParseIndex("0") == Some(0);
    ResolveListOwner(RootValue, path, "posts", "0", sub);
  }

  lemma ResolvesSecondPost(path: string, sub: seq<string>)
    requires Split(path) == ["posts", "1"] + sub
    ensures Resolve(RootValue, path) == Some(ArrayRecord("posts", 1, Post2, sub))
  {
    assert ParseIndex("1") == Some(1);
    ResolveListOwner(RootValue, path, "posts", "1", sub);
  }

  lemma ResolvesUser(path: string, sub: seq<string>)
    requires |sub| > 0 && Split(path) == ["user"] + sub
    ensures Resolve(RootValue, path) == Some(ObjectRecord("user", User, sub))
  {
    ResolveMapOwner(RootValue, path, "user", sub);
  }

  // The values the suite expects, each built from the fixture as the suite builds it.

  /** `getIn(['posts', 0]).setIn(['comment', 0, 'text'], 'zzz')` */
  const UpdatedPost: Doc := SetIn(Post1, ["comment", "0", "text"], Str("zzz"))

  /** `getIn(['user']).setIn(['info', 'phone', 0, 'type'], 'C')` */
  const UpdatedUser: Doc := SetIn(User, ["info", "phone", "0", "type"], Str("C"))

  const NewPost: Doc := Map(map["title" := Str(""), "comments" := List([]), "users" := List([])])

  const NewUser: Doc := Map(map["name" := Str("")])

  /** `getIn(['posts', 0]).updateIn(['users'], list => list.push({name: ''}))` */
  const PostWithNewUser: Doc := SetIn(Post1, ["users"], List(Post1.fields["users"].items + [NewUser]))

  const NewPhone: Doc := Map(map["type" := Str(""), "value" := Str("")])

  /** `get('user').updateIn(['info', 'phone'], list => list.push({type: '', value: ''}))` */
  const UserWithNewPhone: Doc := SetIn(User, ["info", "phone"], List(Phone.items + [NewPhone]))

  /** `getIn(['posts', 1]).updateIn(['users'], list => list.delete(0))` */
  const PostWithoutFirstUser: Doc := SetIn(Post2, ["users"], List(Post2.fields["users"].items[1..]))

  /** `get('user').updateIn(['info', 'phone'], list => list.delete(1))` */
  const UserWithoutSecondPhone: Doc := SetIn(User, ["info", "phone"], List(Phone.items[..1]))

  /** `getIn(['posts', 1]).set('users', [{name: 'name2'}, {name: 'name1'}])` */
  const PostWithSwappedUsers: Doc :=
    SetIn(Post2, ["users"], List([Map(map["name" := Str("name2")]), Map(map["name" := Str("name1")])]))

  /** `getIn(['user']).setIn(['info', 'phone'], [{type: 'C', value: 'yyy'}, {type: 'H', value: 'xxx'}])` */
  const UserWithSwappedPhones: Doc :=
    SetIn(User, ["info", "phone"], List([
      Map(map["type" := Str("C"), "value" := Str("yyy")]),
      Map(map["type" := Str("H"), "value" := Str("xxx")])]))

  const Removed: Doc := Map(map["id" := Str("user2")])

  const Linked: Doc := Map(map["id" := Str("id1")])

  // The ids of the two posts.

  lemma FirstPostId()
    ensures IdField(Post1) == Id(Str("id1"))
  {
  }

  lemma SecondPostId()
    ensures IdField(Post2) == Id(Str("id2"))
  {
  }

  // The leaves the suite updates.

  lemma CommentTextDefined()
    ensures GetIn(Post1, ["comment", "0", "text"]) == Some(Str("xxx"))
  {
    assert ParseIndex("0") == Some(0);
  }

  lemma PhoneTypeDefined()
    ensures GetIn(User, ["info", "phone", "0", "type"]) == Some(Str("H"))
  {
    assert ParseIndex("0") == Some(0);
  }

  // The list edits of the suite, carried out on the fixture.

  lemma FirstUserDeleted()
    ensures HasChildAt(Post2, ["users", "0"])
    ensures DeleteAt(Post2, ["users", "0"]) == PostWithoutFirstUser
  {
    assert ParseIndex("0") == Some(0);
    var users := Post2.fields["users"].items;
    assert users[..0] + users[1..] == users[1..];
  }

  lemma SecondPhoneDeleted()
    ensures HasChildAt(User, ["info", "phone", "1"])
    ensures DeleteAt(User, ["info", "phone", "1"]) == UserWithoutSecondPhone
  {
    assert ParseIndex("1") == Some(1);
    assert Phone.items[..1] + Phone.items[2..] == Phone.items[..1];
  }

  lemma UsersSwapped()
    ensures IsListAt(Post2, ["users"]) && |ListAt(Post2, ["users"])| == 2
    ensures HasChildAt(Post2, ["users", "0"]) && HasChildAt(Post2, ["users", "1"])
    ensures ParseIndex("0") == Some(0) && ParseIndex("1") == Some(1)
    ensures SwapAt(Post2, ["users"], 0, 1) == PostWithSwappedUsers
  {
    var users := Post2.fields["users"].items;
    assert SwapItems(users, 0, 1) == [Map(map["name" := Str("name2")]), Map(map["name" := Str("name1")])];
  }

  lemma PhonesSwapped()
    ensures IsListAt(User, ["info", "phone"]) && |ListAt(User, ["info", "phone"])| == 2
    ensures HasChildAt(User, ["info", "phone", "0"]) && HasChildAt(User, ["info", "phone", "1"])
    ensures ParseIndex("0") == Some(0) && ParseIndex("1") == Some(1)
    ensures SwapAt(User, ["info", "phone"], 0, 1) == UserWithSwappedPhones
  {
    assert SwapItems(Phone.items, 0, 1) == [Phone.items[1], Phone.items[0]];
  }

  // update action

  lemma UpdateArrayItemCase(path: string)
    requires Resolve(RootValue, path) == Some(ArrayRecord("posts", 0, Post1, ["comment", "0", "text"]))
    ensures Valid(SingleRequest(path, Update, Some(Str("zzz")), false))
    ensures GenerateAction(SingleRequest(path, Update, Some(Str("zzz")), false))
      == Action(UPDATE_ARRAY, KeyIdValue("posts", Id(Str("id1")),
           UpdatedPost))
  {
    FirstPostId();
    CommentTextDefined();
  }

  /** `posts/0/comment/0/text` updated to "zzz": the first post, recomputed. */
  lemma UpdateArrayItemExample(path: string)
    requires Split(path) == ["posts", "0", "comment", "0", "text"]
    ensures Valid(SingleRequest(path, Update, Some(Str("zzz")), false))
    ensures GenerateAction(SingleRequest(path, Update, Some(Str("zzz")), false))
      == Action(UPDATE_ARRAY, KeyIdValue("posts", Id(Str("id1")),
           UpdatedPost))
  {
    ResolvesFirstPost(path, ["comment", "0", "text"]);
    UpdateArrayItemCase(path);
  }

  lemma UpdateObjectWithPathCase(path: string)
    requires Resolve(RootValue, path) == Some(ObjectRecord("user", User, ["info", "phone", "0", "type"]))
    ensures Valid(SingleRequest(path, Update, Some(Str("C")), false))
    ensures GenerateAction(SingleRequest(path, Update, Some(Str("C")), false))
      == Action(UPDATE_OBJECT, KeyIdValue("user", EmptyId,
           UpdatedUser))
  {
    PhoneTypeDefined();
  }

  /** `user/info/phone/0/type` updated to "C": the root object `user`, recomputed. */
  lemma UpdateObjectWithPathExample(path: string)
    requires Split(path) == ["user", "info", "phone", "0", "type"]
    ensures Valid(SingleRequest(path, Update, Some(Str("C")), false))
    ensures GenerateAction(SingleRequest(path, Update, Some(Str("C")), false))
      == Action(UPDATE_OBJECT, KeyIdValue("user", EmptyId,
           UpdatedUser))
  {
    ResolvesUser(path, ["info", "phone", "0", "type"]);
    UpdateObjectWithPathCase(path);
  }

  // create action

  /** A new post under the root collection `posts`: the raw value, no id. */
  lemma CreateRootArrayItemExample(path: string)
    requires Split(path) == ["posts"]
    ensures Valid(SingleRequest(path, Create, Some(NewPost), false))
    ensures GenerateAction(SingleRequest(path, Create, Some(NewPost), false))
      == Action(CREATE_ARRAY, KeyIdValue("posts", NoId, NewPost))
  {
  }

  lemma CreateArrayItemInArrayCase(path: string)
    requires Resolve(RootValue, path) == Some(ArrayRecord("posts", 0, Post1, ["users"]))
    ensures Valid(SingleRequest(path, Create, Some(NewUser), false))
    ensures GenerateAction(SingleRequest(path, Create, Some(NewUser), false))
      == Action(UPDATE_ARRAY, KeyIdValue("posts", Id(Str("id1")),
           PostWithNewUser))
  {
    FirstPostId();
    assert IsListAt(Post1, ["users"]);
    assert ListAt(Post1, ["users"]) + [NewUser] == [Map(map[]), NewUser];
  }

  /** A new user appended under `posts/0/users`: the first post, recomputed. */
  lemma CreateArrayItemInArrayExample(path: string)
    requires Split(path) == ["posts", "0", "users"]
    ensures Valid(SingleRequest(path, Create, Some(NewUser), false))
    ensures GenerateAction(SingleRequest(path, Create, Some(NewUser), false))
      == Action(UPDATE_ARRAY, KeyIdValue("posts", Id(Str("id1")),
           PostWithNewUser))
  {
    ResolvesFirstPost(path, ["users"]);
    CreateArrayItemInArrayCase(path);
  }

  lemma CreateArrayItemInObjectCase(path: string)
    requires Resolve(RootValue, path) == Some(ObjectRecord("user", User, ["info", "phone"]))
    ensures Valid(SingleRequest(path, Create, Some(NewPhone), false))
    ensures GenerateAction(SingleRequest(path, Create, Some(NewPhone), false))
      == Action(UPDATE_OBJECT, KeyIdValue("user", EmptyId,
           UserWithNewPhone))
  {
    assert IsListAt(User, ["info", "phone"]);
  }

  /** A new phone appended under `user/info/phone`: the root object `user`, recomputed. */
  lemma CreateArrayItemInObjectExample(path: string)
    requires Split(path) == ["user", "info", "phone"]
    ensures Valid(SingleRequest(path, Create, Some(NewPhone), false))
    ensures GenerateAction(SingleRequest(path, Create, Some(NewPhone), false))
      == Action(UPDATE_OBJECT, KeyIdValue("user", EmptyId,
           UserWithNewPhone))
  {
    ResolvesUser(path, ["info", "phone"]);
    CreateArrayItemInObjectCase(path);
  }

  lemma CreateRelationArrayItemCase(path: string)
    requires Resolve(RootValue, path) == Some(ArrayRecord("posts", 0, Post1, ["users"]))
    ensures Valid(SingleRequest(path, Create, Some(NewUser), true))
    ensures GenerateAction(SingleRequest(path, Create, Some(NewUser), true))
      == Action(CREATE_AND_CONNECT, KeyIdPathValue("posts", Id(Str("id1")), "users", NewUser))
  {
    FirstPostId();
  }

  /** A new user under `posts/0/users` with a relation: the raw value and its path. */
  lemma CreateRelationArrayItemExample(path: string)
    requires Split(path) == ["posts", "0", "users"]
    ensures Valid(SingleRequest(path, Create, Some(NewUser), true))
    ensures GenerateAction(SingleRequest(path, Create, Some(NewUser), true))
      == Action(CREATE_AND_CONNECT, KeyIdPathValue("posts", Id(Str("id1")), "users", NewUser))
  {
    ResolvesFirstPost(path, ["users"]);
    CreateRelationArrayItemCase(path);
  }

  // delete action

  lemma DeleteRootArrayItemCase(path: string)
    requires Resolve(RootValue, path) == Some(ArrayRecord("posts", 0, Post1, []))
    ensures Valid(SingleRequest(path, Delete, None, false))
    ensures GenerateAction(SingleRequest(path, Delete, None, false))
      == Action(DELETE_ARRAY, KeyId("posts", Id(Str("id1"))))
  {
    FirstPostId();
  }

  /** `posts/0` deleted: the collection key and the post's id only. */
  lemma DeleteRootArrayItemExample(path: string)
    requires Split(path) == ["posts", "0"]
    ensures Valid(SingleRequest(path, Delete, None, false))
    ensures GenerateAction(SingleRequest(path, Delete, None, false))
      == Action(DELETE_ARRAY, KeyId("posts", Id(Str("id1"))))
  {
    ResolvesFirstPost(path, []);
    DeleteRootArrayItemCase(path);
  }

  lemma DeleteArrayItemInArrayCase(path: string)
    requires Resolve(RootValue, path) == Some(ArrayRecord("posts", 1, Post2, ["users", "0"]))
    ensures Valid(SingleRequest(path, Delete, None, false))
    ensures GenerateAction(SingleRequest(path, Delete, None, false))
      == Action(UPDATE_ARRAY, KeyIdValue("posts", Id(Str("id2")),
           PostWithoutFirstUser))
  {
    SecondPostId();
    assert ParseIndex("0") == Some(0);
    FirstUserDeleted();
  }

  /** `posts/1/users/0` deleted: the second post, recomputed without its first user. */
  lemma DeleteArrayItemInArrayExample(path: string)
    requires Split(path) == ["posts", "1", "users", "0"]
    ensures Valid(SingleRequest(path, Delete, None, false))
    ensures GenerateAction(SingleRequest(path, Delete, None, false))
      == Action(UPDATE_ARRAY, KeyIdValue("posts", Id(Str("id2")),
           PostWithoutFirstUser))
  {
    ResolvesSecondPost(path, ["users", "0"]);
    DeleteArrayItemInArrayCase(path);
  }

  lemma DeleteArrayItemInObjectCase(path: string)
    requires Resolve(RootValue, path) == Some(ObjectRecord("user", User, ["info", "phone", "1"]))
    ensures Valid(SingleRequest(path, Delete, None, false))
    ensures GenerateAction(SingleRequest(path, Delete, None, false))
      == Action(UPDATE_OBJECT, KeyIdValue("user", EmptyId,
           UserWithoutSecondPhone))
  {
    SecondPhoneDeleted();
  }

  /** `user/info/phone/1` deleted: the root object `user`, recomputed without it. */
  lemma DeleteArrayItemInObjectExample(path: string)
    requires Split(path) == ["user", "info", "phone", "1"]
    ensures Valid(SingleRequest(path, Delete, None, false))
    ensures GenerateAction(SingleRequest(path, Delete, None, false))
      == Action(UPDATE_OBJECT, KeyIdValue("user", EmptyId,
           UserWithoutSecondPhone))
  {
    ResolvesUser(path, ["info", "phone", "1"]);
    DeleteArrayItemInObjectCase(path);
  }

  lemma DeleteRelationArrayItemCase(path: string)
    requires Resolve(RootValue, path) == Some(ArrayRecord("posts", 0, Post1, ["users"]))
    ensures Valid(SingleRequest(path, Delete, Some(Removed), true))
    ensures GenerateAction(SingleRequest(path, Delete, Some(Removed), true))
      == Action(DISCONNECT_AND_DELETE, KeyIdPathValue("posts", Id(Str("id1")), "users", Removed))
  {
    FirstPostId();
  }

  /** A user under `posts/0/users` deleted with a relation: the raw value and its path. */
  lemma DeleteRelationArrayItemExample(path: string)
    requires Split(path) == ["posts", "0", "users"]
    ensures Valid(SingleRequest(path, Delete, Some(Removed), true))
    ensures GenerateAction(SingleRequest(path, Delete, Some(Removed), true))
      == Action(DISCONNECT_AND_DELETE, KeyIdPathValue("posts", Id(Str("id1")), "users", Removed))
  {
    ResolvesFirstPost(path, ["users"]);
    DeleteRelationArrayItemCase(path);
  }

  // swap action

  lemma SwapRootArrayItemCase(first: string, second: string)
    requires Resolve(RootValue, first) == Some(ArrayRecord("posts", 0, Post1, []))
    requires Resolve(RootValue, second) == Some(ArrayRecord("posts", 1, Post2, []))
    ensures Valid(SwapRequest(first, second))
    ensures GenerateAction(SwapRequest(first, second)) == Action(NOOP, Empty)
  {
  }

  /** `posts/0` swapped with `posts/1`: nothing to do. */
  lemma SwapRootArrayItemExample(first: string, second: string)
    requires Split(first) == ["posts", "0"] && Split(second) == ["posts", "1"]
    ensures Valid(SwapRequest(first, second))
    ensures GenerateAction(SwapRequest(first, second)) == Action(NOOP, Empty)
  {
    ResolvesFirstPost(first, []);
    ResolvesSecondPost(second, []);
    SwapRootArrayItemCase(first, second);
  }

  lemma SwapArrayItemInArrayCase(first: string, second: string)
    requires Resolve(RootValue, first) == Some(ArrayRecord("posts", 1, Post2, ["users", "0"]))
    requires Resolve(RootValue, second) == Some(ArrayRecord("posts", 1, Post2, ["users", "1"]))
    ensures Valid(SwapRequest(first, second))
    ensures GenerateAction(SwapRequest(first, second))
      == Action(UPDATE_ARRAY, KeyIdValue("posts", Id(Str("id2")),
           PostWithSwappedUsers))
  {
    UsersSwappable(first, second);
    UsersSwapAction(first, second);
  }

  lemma UsersSwapAction(first: string, second: string)
    requires Resolve(RootValue, first) == Some(ArrayRecord("posts", 1, Post2, ["users", "0"]))
    requires Resolve(RootValue, second) == Some(ArrayRecord("posts", 1, Post2, ["users", "1"]))
    requires Swappable(RootValue, first, second)
    ensures SwapAction(RootValue, first, second)
      == Action(UPDATE_ARRAY, KeyIdValue("posts", Id(Str("id2")), PostWithSwappedUsers))
  {
    SecondPostId();
    UsersSwapped();
  }

  lemma UsersSwappable(first: string, second: string)
    requires Resolve(RootValue, first) == Some(ArrayRecord("posts", 1, Post2, ["users", "0"]))
    requires Resolve(RootValue, second) == Some(ArrayRecord("posts", 1, Post2, ["users", "1"]))
    ensures Swappable(RootValue, first, second)
  {
    UsersSwapped();
  }

  /** The two users of `posts/1` swapped: the second post, recomputed. */
  lemma SwapArrayItemInArrayExample(first: string, second: string)
    requires Split(first) == ["posts", "1", "users", "0"] && Split(second) == ["posts", "1", "users", "1"]
    ensures Valid(SwapRequest(first, second))
    ensures GenerateAction(SwapRequest(first, second))
      == Action(UPDATE_ARRAY, KeyIdValue("posts", Id(Str("id2")),
           PostWithSwappedUsers))
  {
    ResolvesSecondPost(first, ["users", "0"]);
    ResolvesSecondPost(second, ["users", "1"]);
    SwapArrayItemInArrayCase(first, second);
  }

  lemma SwapArrayItemInObjectCase(first: string, second: string)
    requires Resolve(RootValue, first) == Some(ObjectRecord("user", User, ["info", "phone", "0"]))
    requires Resolve(RootValue, second) == Some(ObjectRecord("user", User, ["info", "phone", "1"]))
    ensures Valid(SwapRequest(first, second))
    ensures GenerateAction(SwapRequest(first, second))
      == Action(UPDATE_OBJECT, KeyIdValue("user", EmptyId,
           UserWithSwappedPhones))
  {
    PhonesSwappable(first, second);
    PhonesSwapAction(first, second);
  }

  lemma PhonesSwapAction(first: string, second: string)
    requires Resolve(RootValue, first) == Some(ObjectRecord("user", User, ["info", "phone", "0"]))
    requires Resolve(RootValue, second) == Some(ObjectRecord("user", User, ["info", "phone", "1"]))
    requires Swappable(RootValue, first, second)
    ensures SwapAction(RootValue, first, second)
      == Action(UPDATE_OBJECT, KeyIdValue("user", EmptyId, UserWithSwappedPhones))
  {
    PhonesSwapped();
    assert Parent(["info", "phone", "0"]) == ["info", "phone"];
    assert Last(["info", "phone", "0"]) == "0" && Last(["info", "phone", "1"]) == "1";
  }

  lemma PhonesSwappable(first: string, second: string)
    requires Resolve(RootValue, first) == Some(ObjectRecord("user", User, ["info", "phone", "0"]))
    requires Resolve(RootValue, second) == Some(ObjectRecord("user", User, ["info", "phone", "1"]))
    ensures Swappable(RootValue, first, second)
  {
    PhonesSwapped();
  }

  /** The two phones of `user` swapped: the root object `user`, recomputed. */
  lemma SwapArrayItemInObjectExample(first: string, second: string)
    requires Split(first) == ["user", "info", "phone", "0"] && Split(second) == ["user", "info", "phone", "1"]
    ensures Valid(SwapRequest(first, second))
    ensures GenerateAction(SwapRequest(first, second))
      == Action(UPDATE_OBJECT, KeyIdValue("user", EmptyId,
           UserWithSwappedPhones))
  {
    ResolvesUser(first, ["info", "phone", "0"]);
    ResolvesUser(second, ["info", "phone", "1"]);
    SwapArrayItemInObjectCase(first, second);
  }

  // connect and disconnect actions

  lemma ConnectCase(path: string)
    requires Resolve(RootValue, path) == Some(ArrayRecord("posts", 0, Post1, ["users"]))
    ensures Valid(SingleRequest(path, Connect, Some(Linked), true))
    ensures GenerateAction(SingleRequest(path, Connect, Some(Linked), true))
      == Action(CONNECT, KeyIdPathValue("posts", Id(Str("id1")), "users", Linked))
  {
    FirstPostId();
  }

  /** A user connected under `posts/0/users`: the raw value and its path. */
  lemma ConnectExample(path: string)
    requires Split(path) == ["posts", "0", "users"]
    ensures Valid(SingleRequest(path, Connect, Some(Linked), true))
    ensures GenerateAction(SingleRequest(path, Connect, Some(Linked), true))
      == Action(CONNECT, KeyIdPathValue("posts", Id(Str("id1")), "users", Linked))
  {
    ResolvesFirstPost(path, ["users"]);
    ConnectCase(path);
  }

  lemma DisconnectCase(path: string)
    requires Resolve(RootValue, path) == Some(ArrayRecord("posts", 0, Post1, ["users"]))
    ensures Valid(SingleRequest(path, Disconnect, Some(Linked), true))
    ensures GenerateAction(SingleRequest(path, Disconnect, Some(Linked), true))
      == Action(DISCONNECT, KeyIdPathValue("posts", Id(Str("id1")), "users", Linked))
  {
    FirstPostId();
  }

  /** A user disconnected under `posts/0/users`: the raw value and its path. */
  lemma DisconnectExample(path: string)
    requires Split(path) == ["posts", "0", "users"]
    ensures Valid(SingleRequest(path, Disconnect, Some(Linked), true))
    ensures GenerateAction(SingleRequest(path, Disconnect, Some(Linked), true))
      == Action(DISCONNECT, KeyIdPathValue("posts", Id(Str("id1")), "users", Linked))
  {
    ResolvesFirstPost(path, ["users"]);
    DisconnectCase(path);
  }
}

=== FILE: generate_action.dfy ===
/**
 `generateAction`: from a slash-delimited id, an update type, an optional
 new value, whether a relation descriptor is present, and the root value,
 to one action descriptor `{type, payload}`.

 The first token of the id names a root field. When that field is a list,
 the second token is an index and the element there is the owning record,
 identified by its `id` field; when it is a map, that map is the owning
 record and its id is the empty string. The remaining tokens are the
 sub-path inside the owning record.
 */
module Actions {
  import opened Wrappers
  import opened Paths
  import opened Documents

  datatype UpdateType = Create | Update | Delete | Swap | Connect | Disconnect

  /** The nine action types, spelled as the store spells them. */
  datatype ActionType =
    | UPDATE_ARRAY
    | UPDATE_OBJECT
    | CREATE_ARRAY
    | CREATE_AND_CONNECT
    | DELETE_ARRAY
    | DISCONNECT_AND_DELETE
    | CONNECT
    | DISCONNECT
    | NOOP

  /** `undefined`, the empty string of a root object, or a record's `id` field. */
  datatype RecordId = NoId | EmptyId | Id(value: Doc)

  datatype Payload =
    | Empty                                                       // {}
    | KeyId(key: string, id: RecordId)                            // {key, id}
    | KeyIdValue(key: string, id: RecordId, value: Doc)           // {key, id, value}
    | KeyIdPathValue(key: string, id: RecordId, path: string, value: Doc)  // {key, id, path, value}

  datatype Action = Action(kind: ActionType, payload: Payload)

  /** A swap names two ids, every other update one. */
  datatype Target = Single(path: string) | Pair(firstId: string, secondId: string)

  datatype Request = Request(
    id: Target,
    updateType: UpdateType,
    value: Option<Doc>,
    hasRelation: bool,
    rootValue: Doc)

  /**
   The class of a resolved location: a bare root list, a root list's element
   itself, a place below a root list's element, or a place below a root map.
   Records inside a root list are split in two because the element itself
   is deleted with DELETE_ARRAY and swapped with NOOP, while a place below
   it updates the element with UPDATE_ARRAY.
   */
  datatype Place = RootCollection | RootItem | InArrayItem | InObject

  datatype Location =
    | Collection(key: string)
    | ArrayRecord(key: string, index: nat, record: Doc, sub: seq<string>)
    | ObjectRecord(key: string, record: Doc, sub: seq<string>)
  {
    function Place(): Place {
      match this
      case Collection(_) => RootCollection
      case ArrayRecord(_, _, _, sub) => if |sub| == 0 then RootItem else InArrayItem
      case ObjectRecord(_, _, _) => InObject
    }

    /** The tokens that lead from the root to the owning record. */
    function OwnerPath(): seq<string> {
      match this
      case Collection(key) => [key]
      case ArrayRecord(key, index, _, _) => [key, IndexToken(index)]
      case ObjectRecord(key, _, _) => [key]
    }

    function SubPath(): seq<string> {
      if Collection? then [] else sub
    }

    function OwnerId(): RecordId {
      match this
      case Collection(_) => NoId
      case ArrayRecord(_, _, record, _) => IdField(record)
      case ObjectRecord(_, _, _) => EmptyId
    }
  }

  /** `record.get('id')`. */
  function IdField(record: Doc): RecordId {
    if record.Map? && "id" in record.fields then Id(record.fields["id"]) else NoId
  }

  /**
   Resolve an id against the root value. A single token must name a root
   list (the collection itself); otherwise the first two tokens must reach a
   list element or the first must reach a map.
   */
  function Resolve(root: Doc, path: string): (r: Option<Location>)
    ensures r.Some? <==>
      var tokens := Split(path);
      || (|tokens| == 1 && IsListAt(root, tokens))
      || (|tokens| > 1 && Defined(root, tokens[..1]) && GetIn(root, tokens[..1]).value.Map?)
      || (|tokens| > 1 && IsListAt(root, tokens[..1]) && Defined(root, tokens[..2]))
    ensures r.Some? ==> Split(path) == r.value.OwnerPath() + r.value.SubPath()
    ensures r.Some? && r.value.Collection? ==> IsListAt(root, r.value.OwnerPath())
    ensures r.Some? && !r.value.Collection? ==> GetIn(root, r.value.OwnerPath()) == Some(r.value.record)
    ensures r.Some? && r.value.ObjectRecord? ==> |r.value.sub| > 0
  {
    var tokens := Split(path);
    var key := tokens[0];
    assert tokens == [key] + tokens[1..];
    GetInOne(root, key);
    if |tokens| == 1 then
      assert tokens == [key];
      if Child(root, key).Some? && Child(root, key).value.List? then Some(Collection(key)) else None
    else
      assert tokens[..1] == [key];
      assert tokens[..2] == [key, tokens[1]];
      GetInTwo(root, key, tokens[1]);
      match Child(root, key)
      case Some(List(items)) =>
        (match ParseIndex(tokens[1])
         case Some(i) =>
           if i < |items| then
             ParseIndexIff(tokens[1], i);
             assert tokens == [key, tokens[1]] + tokens[2..];
             Some(ArrayRecord(key, i, items[i], tokens[2..]))
           else None
         case None => None)
      case Some(Map(fields)) => Some(ObjectRecord(key, Map(fields), tokens[1..]))
      case _ => None
  }

  /**
   The decision table: the action type for an update type, the class of the
   location it targets and whether a relation descriptor is present; `None`
   where no action is defined.
   */
  function Select(u: UpdateType, place: Place, hasRelation: bool): (r: Option<ActionType>)
    // only a create without a relation acts on a bare root collection
    ensures place == RootCollection ==> (r.Some? <==> u == Create && !hasRelation)
    ensures r == Some(CREATE_ARRAY) <==> u == Create && !hasRelation && place == RootCollection
    ensures r == Some(DELETE_ARRAY) <==> u == Delete && !hasRelation && place == RootItem
    ensures r == Some(NOOP) <==> u == Swap && place == RootItem
    // the four relation types appear exactly for relation requests below a record
    ensures r == Some(CREATE_AND_CONNECT) <==> u == Create && hasRelation && place != RootCollection
    ensures r == Some(DISCONNECT_AND_DELETE) <==> u == Delete && hasRelation && place != RootCollection
    ensures r == Some(CONNECT) <==> u == Connect && hasRelation && place != RootCollection
    ensures r == Some(DISCONNECT) <==> u == Disconnect && hasRelation && place != RootCollection
    // a recomputed record is an array element's or the root object's, by where it lives
    ensures r == Some(UPDATE_ARRAY) ==> place == RootItem || place == InArrayItem
    ensures r == Some(UPDATE_OBJECT) ==> place == InObject
    // connect and disconnect without a relation, and update of a bare collection, are undefined
    ensures (u == Connect || u == Disconnect) && !hasRelation ==> r.None?
    // below a record, the plain edits recompute the owner: UPDATE_ARRAY for a
    // root list's element, UPDATE_OBJECT for a root map
    ensures place != RootCollection &&
      (|| u == Update
       || (u == Create && !hasRelation)
       || (u == Delete && !hasRelation && place != RootItem)
       || (u == Swap && place != RootItem))
      ==> r == Some(if place == InObject then UPDATE_OBJECT else UPDATE_ARRAY)
  {
    var owned := place != RootCollection;
    var inArray := place == RootItem || place == InArrayItem;
    var recordUpdate := if inArray then UPDATE_ARRAY else UPDATE_OBJECT;
    match u
    case Create =>
      if hasRelation then (if owned then Some(CREATE_AND_CONNECT) else None)
      else if !owned then Some(CREATE_ARRAY)
      else Some(recordUpdate)
    case Update =>
      if owned then Some(recordUpdate) else None
    case Delete =>
      if !owned then None
      else if hasRelation then Some(DISCONNECT_AND_DELETE)
      else if place == RootItem then Some(DELETE_ARRAY)
      else Some(recordUpdate)
    case Swap =>
      if !owned then None
      else if place == RootItem then Some(NOOP)
      else Some(recordUpdate)
    case Connect =>
      if owned && hasRelation then Some(CONNECT) else None
    case Disconnect =>
      if owned && hasRelation then Some(DISCONNECT) else None
  }

  /** A relation action names an existing field below its owning record. */
  predicate RelationTarget(loc: Location) {
    !loc.Collection? && |loc.sub| > 0 && Defined(loc.record, loc.sub)
  }

  /** What the update needs of the location beyond the table allowing it. */
  predicate Applicable(u: UpdateType, loc: Location, value: Option<Doc>, hasRelation: bool) {
    match u
    case Create =>
      && value.Some?
      && (if hasRelation then RelationTarget(loc)
          else loc.Collection? || IsListAt(loc.record, loc.sub))
    case Update =>
      value.Some? && !loc.Collection? && Defined(loc.record, loc.sub)
    case Delete =>
      && !loc.Collection?
      && (if hasRelation then value.Some? && RelationTarget(loc)
          else loc.Place() == RootItem || HasChildAt(loc.record, loc.sub))
    case Swap => false
    case Connect => value.Some? && RelationTarget(loc)
    case Disconnect => value.Some? && RelationTarget(loc)
  }

  /**
   Two ids a swap can exchange: both root-level records, or two elements of
   one list inside the same owning record.
   */
  predicate Swappable(root: Doc, first: string, second: string) {
    match (Resolve(root, first), Resolve(root, second))
    case (Some(a), Some(b)) =>
      || (a.Place() == RootItem && b.Place() == RootItem)
      || (&& a.Place() == b.Place()
          && (a.Place() == InArrayItem || a.Place() == InObject)
          && a.OwnerPath() == b.OwnerPath()
          && |a.sub| == |b.sub|
          && Parent(a.sub) == Parent(b.sub)
          && IsListAt(a.record, Parent(a.sub))
          && HasChildAt(a.record, a.sub)
          && HasChildAt(a.record, b.sub))
    case _ => false
  }

  /** Two swappable ids below an owner name two in-range elements of one list. */
  lemma SiblingIndices(root: Doc, first: string, second: string)
    requires Swappable(root, first, second)
    requires Resolve(root, first).value.Place() != RootItem
    ensures
      var x := Resolve(root, first).value;
      var y := Resolve(root, second).value;
      && !x.Collection? && !y.Collection? && |x.sub| > 0 && |y.sub| > 0
      && IsListAt(x.record, Parent(x.sub))
      && y.OwnerPath() == x.OwnerPath()
      && Parent(y.sub) == Parent(x.sub)
      && ParseIndex(Last(x.sub)).Some?
      && ParseIndex(Last(x.sub)).value < |ListAt(x.record, Parent(x.sub))|
      && ParseIndex(Last(y.sub)).Some?
      && ParseIndex(Last(y.sub)).value < |ListAt(x.record, Parent(x.sub))|
  {
    var x := Resolve(root, first).value;
    var y := Resolve(root, second).value;
    ListChild(x.record, x.sub);
    ListChild(x.record, y.sub);
  }

  /** The requests the source defines an action for. */
  predicate Valid(req: Request) {
    match req.id
    case Single(path) =>
      && req.updateType != Swap
      && Resolve(req.rootValue, path).Some?
      && var loc := Resolve(req.rootValue, path).value;
      && Select(req.updateType, loc.Place(), req.hasRelation).Some?
      && Applicable(req.updateType, loc, req.value, req.hasRelation)
    case Pair(first, second) =>
      req.updateType == Swap && Swappable(req.rootValue, first, second)
  }

  /** The location of the (first) id of a valid request. */
  function Located(req: Request): Location
    requires Valid(req)
  {
    match req.id
    case Single(path) => Resolve(req.rootValue, path).value
    case Pair(first, _) => Resolve(req.rootValue, first).value
  }

  /** The payload carries the fields its action type calls for. */
  predicate WellShaped(a: Action) {
    match a.kind
    case UPDATE_ARRAY => a.payload.KeyIdValue?
    case UPDATE_OBJECT => a.payload.KeyIdValue?
    case CREATE_ARRAY => a.payload.KeyIdValue?
    case DELETE_ARRAY => a.payload.KeyId?
    case CREATE_AND_CONNECT => a.payload.KeyIdPathValue?
    case DISCONNECT_AND_DELETE => a.payload.KeyIdPathValue?
    case CONNECT => a.payload.KeyIdPathValue?
    case DISCONNECT => a.payload.KeyIdPathValue?
    case NOOP => a.payload.Empty?
  }

  /** The owning record, recomputed, under UPDATE_ARRAY or UPDATE_OBJECT. */
  function RecordAction(loc: Location, record: Doc): Action
    requires !loc.Collection?
  {
    Action(if loc.ArrayRecord? then UPDATE_ARRAY else UPDATE_OBJECT,
           KeyIdValue(loc.key, loc.OwnerId(), record))
  }

  /** A relation action: the raw value and the sub-path it belongs under. */
  function RelationAction(kind: ActionType, loc: Location, value: Doc): Action
  {
    Action(kind, KeyIdPathValue(loc.key, loc.OwnerId(), Join(loc.SubPath()), value))
  }

  /** The action for a two-id swap. */
  function SwapAction(root: Doc, first: string, second: string): (a: Action)
    requires Swappable(root, first, second)
    ensures Some(a.kind) == Select(Swap, Resolve(root, first).value.Place(), false)
    ensures WellShaped(a)
    ensures !a.payload.Empty? ==> a.payload.key == Resolve(root, first).value.key
    ensures !a.payload.Empty? ==> a.payload.id == Resolve(root, first).value.OwnerId()
  {
    var x := Resolve(root, first).value;
    var y := Resolve(root, second).value;
    if x.Place() == RootItem then Action(NOOP, Empty)
    else
      SiblingIndices(root, first, second);
      var list := Parent(x.sub);
      var i := ParseIndex(Last(x.sub)).value;
      var j := ParseIndex(Last(y.sub)).value;
      RecordAction(x, SwapAt(x.record, list, i, j))
  }

  /** The action for a single-id update. */
  function SingleAction(u: UpdateType, loc: Location, value: Option<Doc>, hasRelation: bool): (a: Action)
    requires u != Swap
    requires Select(u, loc.Place(), hasRelation).Some?
    requires Applicable(u, loc, value, hasRelation)
    ensures Some(a.kind) == Select(u, loc.Place(), hasRelation)
    ensures WellShaped(a)
    ensures !a.payload.Empty? ==> a.payload.key == loc.key
    ensures !a.payload.Empty? ==> a.payload.id == loc.OwnerId()
  {
    match u
    case Create =>
      if hasRelation then RelationAction(CREATE_AND_CONNECT, loc, value.value)
      else if loc.Collection? then Action(CREATE_ARRAY, KeyIdValue(loc.key, NoId, value.value))
      else RecordAction(loc, AppendAt(loc.record, loc.sub, value.value))
    case Update =>
      RecordAction(loc, SetIn(loc.record, loc.sub, value.value))
    case Delete =>
      if hasRelation then RelationAction(DISCONNECT_AND_DELETE, loc, value.value)
      else if loc.Place() == RootItem then Action(DELETE_ARRAY, KeyId(loc.key, loc.OwnerId()))
      else RecordAction(loc, DeleteAt(loc.record, loc.sub))
    case Connect => RelationAction(CONNECT, loc, value.value)
    case Disconnect => RelationAction(DISCONNECT, loc, value.value)
  }

  function GenerateAction(req: Request): (a: Action)
    requires Valid(req)
    ensures Some(a.kind) == Select(req.updateType, Located(req).Place(), req.hasRelation)
    ensures WellShaped(a)
    ensures !a.payload.Empty? ==> a.payload.key == Located(req).key
    ensures !a.payload.Empty? ==> a.payload.id == Located(req).OwnerId()
  {
    match req.id
    case Pair(first, second) => SwapAction(req.rootValue, first, second)
    case Single(path) =>
      SingleAction(req.updateType, Resolve(req.rootValue, path).value, req.value, req.hasRelation)
  }
}

=== FILE: paths.dfy ===
/**
 Slash-delimited ids such as `posts/0/comment/0/text`: splitting them into
 tokens, joining a sub-path back together, and reading a token as a list
 index the way a persistent list reads a string key (only the canonical
 decimal spelling of a number selects an element).
 */
module Paths {
  import opened Wrappers

  const Separator: char := '/'

  /** No token of the sequence contains the separator. */
  predicate NoSeparator(tokens: seq<string>) {
    forall i :: 0 <= i < |tokens| ==> Separator !in tokens[i]
  }

  /** `s.split('/')`: never empty, and no token holds a separator. */
  function Split(s: string): (tokens: seq<string>)
    ensures |tokens| >= 1
    ensures NoSeparator(tokens)
    decreases |s|
  {
    if |s| == 0 then [""]
    else
      var rest := Split(s[1..]);
      if s[0] == Separator then [""] + rest
      else
        var head := [s[0]] + rest[0];
        assert Separator !in head;
        [head] + rest[1..]
  }

  /** `tokens.join('/')`; the empty sequence joins to the empty string. */
  function Join(tokens: seq<string>): string
  {
    if |tokens| == 0 then ""
    else if |tokens| == 1 then tokens[0]
    else tokens[0] + [Separator] + Join(tokens[1..])
  }

  /** Joining the tokens of a split gives back the original id. */
  lemma {:induction false} JoinSplit(s: string)
    ensures Join(Split(s)) == s
    decreases |s|
  {
    if |s| > 0 {
      JoinSplit(s[1..]);
      var rest := Split(s[1..]);
      if s[0] == Separator {
        assert ([""] + rest)[1..] == rest;
      } else {
        var tokens := [[s[0]] + rest[0]] + rest[1..];
        assert tokens[1..] == rest[1..];
        if |rest| > 1 {
          assert Join(rest) == rest[0] + [Separator] + Join(rest[1..]);
        }
      }
      assert s == [s[0]] + s[1..];
    }
  }

  /** Two ids with the same tokens are the same id. */
  lemma SplitInjective(s: string, t: string)
    requires Split(s) == Split(t)
    ensures s == t
  {
    JoinSplit(s);
    JoinSplit(t);
  }

  /** A separator-free prefix becomes the first token of the split. */
  lemma {:induction false} SplitCons(t: string, u: string)
    requires Separator !in t
    ensures Split(t + [Separator] + u) == [t] + Split(u)
    decreases |t|
  {
    var s := t + [Separator] + u;
    if |t| == 0 {
      assert s[1..] == u;
    } else {
      assert s[1..] == t[1..] + [Separator] + u;
      SplitCons(t[1..], u);
      assert [t[0]] + t[1..] == t;
    }
  }

  /** A separator-free string splits into itself alone. */
  lemma {:induction false} SplitSingle(t: string)
    requires Separator !in t
    ensures Split(t) == [t]
    decreases |t|
  {
    if |t| > 0 {
      SplitSingle(t[1..]);
      assert [t[0]] + t[1..] == t;
    }
  }

  /** Splitting a join of separator-free tokens gives back the tokens. */
  lemma {:induction false} SplitJoin(tokens: seq<string>)
    requires |tokens| >= 1
    requires NoSeparator(tokens)
    ensures Split(Join(tokens)) == tokens
    decreases |tokens|
  {
    if |tokens| == 1 {
      SplitSingle(tokens[0]);
    } else {
      assert Separator !in tokens[0];
      assert NoSeparator(tokens[1..]) by {
        forall i | 0 <= i < |tokens[1..]|
          ensures Separator !in tokens[1..][i]
        {
          assert tokens[1..][i] == tokens[i + 1];
        }
      }
      SplitJoin(tokens[1..]);
      SplitCons(tokens[0], Join(tokens[1..]));
      assert [tokens[0]] + tokens[1..] == tokens;
    }
  }

  /** Joining two non-empty runs of tokens puts one separator between them. */
  lemma {:induction false} JoinConcat(xs: seq<string>, ys: seq<string>)
    requires |xs| > 0 && |ys| > 0
    ensures Join(xs + ys) == Join(xs) + [Separator] + Join(ys)
    decreases |xs|
  {
    assert (xs + ys)[0] == xs[0];
    assert (xs + ys)[1..] == xs[1..] + ys;
    if |xs| > 1 {
      JoinConcat(xs[1..], ys);
    }
  }

  predicate IsDigit(c: char) {
    '0' <= c <= '9'
  }

  predicate AllDigits(s: string) {
    forall i :: 0 <= i < |s| ==> IsDigit(s[i])
  }

  function DigitValue(c: char): nat
    requires IsDigit(c)
  {
    (c as int) - ('0' as int)
  }

  function DigitChar(d: nat): char
    requires d < 10
  {
    (('0' as int) + d) as char
  }

  /** The number a string of decimal digits spells, most significant first. */
  function DigitsValue(s: string): nat
    requires AllDigits(s)
    decreases |s|
  {
    if |s| == 0 then 0
    else 10 * DigitsValue(s[..|s| - 1]) + DigitValue(s[|s| - 1])
  }

  /** The canonical decimal spelling of an index: digits only, no leading zero. */
  predicate IsIndexToken(tok: string) {
    && |tok| > 0
    && AllDigits(tok)
    && (tok[0] == '0' ==> |tok| == 1)
  }

  /** A token read as a list index: the number it spells when canonical. */
  function ParseIndex(tok: string): Option<nat>
  {
    if IsIndexToken(tok) then Some(DigitsValue(tok)) else None
  }

  /** `String(n)`: the decimal spelling of an index. */
  function IndexToken(n: nat): (tok: string)
    ensures IsIndexToken(tok)
    ensures tok[0] == '0' <==> n == 0
    decreases n
  {
    if n < 10 then [DigitChar(n)]
    else IndexToken(n / 10) + [DigitChar(n % 10)]
  }

  lemma {:induction false} DigitsValueOfIndexToken(n: nat)
    ensures DigitsValue(IndexToken(n)) == n
    decreases n
  {
    if n >= 10 {
      DigitsValueOfIndexToken(n / 10);
      var tok := IndexToken(n);
      assert tok[..|tok| - 1] == IndexToken(n / 10);
    }
  }

  /** Digits with a non-zero leading digit spell a positive number. */
  lemma {:induction false} LeadingDigitPositive(s: string)
    requires |s| > 0 && AllDigits(s) && s[0] != '0'
    ensures DigitsValue(s) >= 1
    decreases |s|
  {
    if |s| > 1 {
      LeadingDigitPositive(s[..|s| - 1]);
    }
  }

  lemma {:induction false} IndexTokenOfDigits(tok: string)
    requires IsIndexToken(tok)
    ensures IndexToken(DigitsValue(tok)) == tok
    decreases |tok|
  {
    if |tok| > 1 {
      var init := tok[..|tok| - 1];
      assert IsIndexToken(init);
      LeadingDigitPositive(init);
      IndexTokenOfDigits(init);
      assert tok == init + [tok[|tok| - 1]];
    }
  }

  /** A token names index `n` exactly when it is the decimal spelling of `n`. */
  lemma ParseIndexIff(tok: string, n: nat)
    ensures ParseIndex(tok) == Some(n) <==> tok == IndexToken(n)
  {
    if ParseIndex(tok) == Some(n) {
      IndexTokenOfDigits(tok);
    }
    if tok == IndexToken(n) {
      DigitsValueOfIndexToken(n);
    }
  }

  /** Two tokens that select the same index are the same token. */
  lemma ParseIndexInjective(t: string, u: string)
    requires ParseIndex(t).Some? && ParseIndex(t) == ParseIndex(u)
    ensures t == u
  {
    ParseIndexIff(t, ParseIndex(t).value);
    ParseIndexIff(u, ParseIndex(u).value);
  }
}

=== FILE: wrappers.dfy ===
/** The optional value used wherever a lookup can come back `undefined`. */
module Wrappers {

  datatype Option<+T> = None | Some(value: T)

}
